=== FILE: README.md ===
# baronzr in Dafny

baronzr is a jQuery plugin that gives a container element custom scrollbars.
It builds or finds the scroll structure and hands the scroll mechanics to the
Baron engine. This project models the plugin's configuration and dispatch
layer in `js/baronzr.js`. The model covers:

- the shared `options` record and the shallow `$.extend` merge of each
  call's overrides into it;
- the validators, as written;
- the choice of scroller and bar class names by `direction`;
- the three structure builders (create in place, wrap, use existing);
- the choice of visibility effect and the handlers it binds;
- the debounced "fastout" hover handlers, as a state machine;
- the touch event names;
- the `each` loop of `$.fn.baronzr` that collects one engine handle, or
  `null`, per target element.

Modules, leaves first:

- `JsValues` (`js_values.dfy`): JavaScript values and the few operations the plugin relies on. These are truthiness, `typeof`, string conversion by `+`, indexing, property reads, and completions that may throw.
- `Config` (`config.dfy`): the options record, its defaults and `$.extend`.
- `Validator` (`validator.dfy`): `BaronzrValidator`.
- `TouchEvents` (`touch_events.dfy`): `BaronzrTouchEvents`.
- `Dom` (`dom.dfy`): a small element/text tree. It gives meaning to `.children()`, class selectors, `.css(...)` and markup.
- `Host` (`host.dfy`): the capabilities the plugin probes, and the calls it makes into Baron and jQuery event binding. These calls are recorded in order, not performed.
- `Effects` (`effects.dfy`): `setEffect` and `setHoverEffect`.
- `Fastout` (`fastout.dfy`): the fastout hover handlers, as a state machine over enter(now), leave and fade-in-complete events.
- `Strategies` (`strategies.dfy`): `BaronzrCreator`, `BaronzrWrapper` and `BaronzrUseExisting`.
- `Dispatch` (`dispatch.dfy`): `Baronzr.run` and `$.fn.baronzr`. The module-level `options` variable is passed in and returned as `Shared`.

Behaviour of the code that the model keeps:

- `validateOptions` has no `return`, so `options = BaronzrValidator.validateOptions(options)` leaves `options` undefined.
- Because of this, a call on at least one element with validation switched on always throws at its first element. A call on an empty jQuery set never enters `each`, so it merges nothing and throws nothing. It throws a ReferenceError from the undeclared `ops` when `scrollerClasses` is not an array. Otherwise it throws a TypeError from reading `creationMode` of `undefined`.
- After the TypeError, the next call's `$.extend(undefined, opts)` starts from `{}`.
- After the ReferenceError, `options` still asks for validation and still holds the non-array `scrollerClasses`. Every later call on at least one element that sets neither key throws the same ReferenceError.
- `validateEffect` writes `'hover'` into `direction`, and rejects the effect `'none'` that the plugin's doc comment lists (js/baronzr.js:17-18).
- In create mode, `.children()` sees only element children, but `.empty()` removes text nodes as well. When the root has element children, text directly under the root is dropped. When it has none, its text stays outside the new scroller.
- A fastout timestamp of 0 is falsy, so it never debounces.

The plugin's own doc comment (js/baronzr.js:25-27) says that validation
replaces invalid options with default values. The code does something else,
and the model follows the code. With validation on, every call on at least
one element ends with an exception. The invalid-effect branch of
`validateEffect` assigns to `direction`, never to `effect`.

## Model

| member | source | states |
|---|---|---|
| `JsValues.Index` | js/baronzr.js:152 | Indexing `undefined` or `null` throws a TypeError. Indexing an array within bounds gives the element. Past its end, a short `scrollerClasses` for example, it gives `undefined`. A string gives its one-character string within bounds and `undefined` past its end. An object gives its property named by the index's decimal spelling. |
| `JsValues.ToJsString` | js/baronzr.js:69-70 | `'' + v` keeps a string as it is and spells `undefined`, `null` and objects as `"undefined"`, `"null"` and `"[object Object]"`. A `null` class name therefore gives the selector `.null`. |
| `JsValues.Prop` | js/baronzr.js:90-93 | Reading a property of `undefined` or `null` throws a TypeError. An object's own key gives its value, and a key the object lacks gives `undefined`. Other non-objects give `undefined`. |
| `JsValues.TypeOf` | js/baronzr.js:318 | `typeof` is `"object"` exactly for null, arrays, objects and host objects. |
| `Config.Extend` | js/baronzr.js:347 | Every key the overrides define (not `undefined`) takes the override's value. Every other key keeps the target's value. The key set is the union. |
| `Config.ExtendIdempotent` | js/baronzr.js:346-347 | Merging the same overrides again, as the loop does for each element, changes nothing. |
| `Config.LeftoverSurvives` | js/baronzr.js:30-41 | A key set by one merge and absent from a later merge keeps the earlier value. |
| `Validator.ValidateDirection` | js/baronzr.js:292-296 | The result's direction is always `'h'` or `'v'`. A valid record is unchanged, an invalid direction becomes `'h'`, and no other key changes. |
| `Validator.ValidateEffect` | js/baronzr.js:298-302 | `effect` is never modified. An effect other than hover or touch sets `direction` to `'hover'`. Only `direction` can change. |
| `Validator.ValidateCreationMode` | js/baronzr.js:304-308 | The result's mode is always one of the three modes. A valid mode is unchanged, anything else becomes `'create'`, and nothing else changes. |
| `Validator.ValidateScrollerClasses` | js/baronzr.js:310-314 | It completes normally exactly when the value is an array, and then resets it to the four defaults. Otherwise it throws a ReferenceError. |
| `Validator.ValidateWrapperAttrs` | js/baronzr.js:316-325 | In wrap mode, nullish or non-object attributes are replaced by the default `{elementId, elementClass}`. The record changes only in that case, and then only `wrapperAttrs`. |
| `Validator.ValidateOptions` | js/baronzr.js:327-333 | A normal completion yields `undefined`. It throws (ReferenceError) exactly when `scrollerClasses` is not an array. The record left after the throw has direction `'h'`/`'v'` as validated, or `'hover'` exactly when the effect is not hover or touch. Its mode is validated and every other key is unchanged. |
| `Validator.ValidatorsIdempotent` | js/baronzr.js:292-308 | For every record, running the direction, effect or mode validator twice is the same as running it once. |
| `Validator.NoneEffectClobbersDirection` | js/baronzr.js:298-302 | With effect `'none'`, a valid `'v'` direction is overwritten by `'hover'`. |
| `TouchEvents.Preferred` | js/baronzr.js:264-271 | The pointer family is chosen iff pointer events are enabled. Otherwise MS pointer is chosen iff it is enabled, else touch. |
| `TouchEvents.TouchStart` | js/baronzr.js:264-271 | The start event is the start event of the preferred family. |
| `TouchEvents.TouchEnd` | js/baronzr.js:273-280 | The end event is the end event of the same preferred family. |
| `TouchEvents.StartIdentifiesFamily` | js/baronzr.js:264-280 | Distinct families have distinct start names, so a start name fixes its end name. |
| `Effects.HoverHandlers` | js/baronzr.js:230-244 | Fastout iff `'fastout'`. Intent iff `'intent'` and hoverIntent is present. Simple in every other case, including intent without the plugin. |
| `Effects.TouchHandlers` | js/baronzr.js:246-253 | Binds fade-in on the preferred family's start event and fade-out on its end event, both on the given scroll root. |
| `Effects.SetEffect` | js/baronzr.js:167-182 | The bar is displayed `block` iff the effect is `'none'`, and hidden otherwise. Hover binds exactly the hover pair. Touch binds the two touch handlers. Every other effect binds nothing. Every handler is bound on the scroll root passed in. |
| `Effects.BarVisibleOnlyForKnownEffects` | js/baronzr.js:167-182 | The bar is visible or can be revealed iff the effect is none, hover or touch. |
| `Fastout.Next` | js/baronzr.js:195-217 | An accepted enter records the time, clears hidden and starts one fade-in. A rejected enter changes nothing. A leave sets hidden and hides the bar. A completion hides the bar iff hidden is set. |
| `Fastout.InsideWindowNoFadeIn` | js/baronzr.js:199-210 | After a truthy timestamp t, enters up to t+300 (inclusive) start no fade-in and keep t, whatever else happens in between. |
| `Fastout.OneFadeInPerWindow` | js/baronzr.js:199-210 | Enters all inside one 300 ms window starting at a positive time start at most one fade-in. |
| `Fastout.HiddenStaysHidden` | js/baronzr.js:202-214 | After a leave, events whose enters fall inside the window never clear the hidden flag. |
| `Fastout.LeaveBeforeCompletionHides` | js/baronzr.js:205-215 | Leave, then in-window events, then the fade-in completion: the last thing done to the bar is hiding it. |
| `Fastout.DebounceExamples` | js/baronzr.js:202 | Re-entries 200 and 300 ms later start no second fade-in. One 301 ms later does. |
| `Dom.ElementChildren` | js/baronzr.js:54-55 | `.children()` keeps exactly the element children, never more, and is empty iff all children are text. |
| `Dom.ClassList` | js/baronzr.js:136 | Each entry of a class attribute's list is a non-empty word without whitespace. |
| `Dom.WordIsListed` | js/baronzr.js:136 | Every whole word of the attribute, bounded by whitespace or its ends, is in the class list that `.c` selectors test. |
| `Dom.ListedIsWord` | js/baronzr.js:136 | Every entry of the class list occurs in the attribute as such a whole word. With `Dom.WordIsListed`, the list holds exactly the attribute's words. |
| `Dom.StyleMatching` | js/baronzr.js:136-137 | Styling matched elements preserves the tree's shape. The top node gets the style iff it matches and is in scope, and otherwise keeps its own. |
| `Dom.StyleAtEveryDepth` | js/baronzr.js:136-137 | At every depth, a node in scope that carries the class gets the style, every other element keeps its own, and text is unchanged. |
| `Dom.StyleReachesChildren` | js/baronzr.js:136-137 | A child carrying the bar class receives the style, and a non-matching child keeps its own. |
| `Strategies.EngineParams` | js/baronzr.js:67-72 | Every key the options define reaches the engine unchanged. `root`, `scroller`, `bar` and `barOnCls` get the builder's values only when the options leave them undefined. No other key reaches the engine. |
| `Strategies.CreateAdd` | js/baronzr.js:47-75 | The scroller is the root's only element child and its last child. It is a plain `div` with the scroller class, holding the root's original element children in order, then the bar. Without element children, the root's text stays before it. The engine is bound on the root before the effect handlers, and every call is made on the root. |
| `Strategies.WrapperAttr` | js/baronzr.js:90-95 | Reading the wrapper id or class throws iff `wrapperAttrs` is nullish. |
| `Strategies.WrapperHtml` | js/baronzr.js:87-100 | The markup builder throws iff `wrapperAttrs` is nullish. |
| `Strategies.WrapperShell` | js/baronzr.js:87-100 | The wrapper is a `div` whose only child is one empty scroller `div`. |
| `Strategies.WrapperHtmlIsShellMarkup` | js/baronzr.js:87-100 | The built string is exactly the markup of wrapper > empty scroller. The id appears only if truthy, then the class only if truthy. |
| `Strategies.WrapAdd` | js/baronzr.js:102-118 | The result is wrapper > scroller > [root, bar], and the root's own children are untouched. The wrapper carries the configured id and class and is positioned relatively. Calls are bind on the wrapper, then update, then the effect handlers. The handlers, like the engine, are bound on the wrapper, not on the target. |
| `Strategies.WrapUpdatesOnceAfterBind` | js/baronzr.js:109-116 | Wrapping calls `update()` exactly once, right after binding the engine. |
| `Strategies.UseExistingAdd` | js/baronzr.js:129-139 | Creates nothing: the tree keeps its shape, and the root is positioned relatively. The engine is bound on the root before the effect handlers, and every call is made on the root. |
| `Strategies.UseExistingStylesBars` | js/baronzr.js:136-137 | Every element below the root that carries the bar class, at any depth, gets the display the effect chose. Every other element keeps its style, and text is unchanged. |
| `Strategies.Add` | js/baronzr.js:352-361 | Creator runs the create-in-place builder, Wrapper the wrapping builder and UseExisting the use-existing builder. Only the wrapper builder can throw, and only for nullish `wrapperAttrs`. |
| `Dispatch.ClassIndices` | js/baronzr.js:151-155 | The pair is (2,3) iff the direction is exactly `'v'`, else (0,1). Scroller and bar always come from the same direction. |
| `Dispatch.ClassPair` | js/baronzr.js:150-156 | Reading the class names throws a TypeError iff `scrollerClasses` is nullish. |
| `Dispatch.ClassPairFromArray` | js/baronzr.js:150-156 | With an array of four strings, direction `'v'` gives entries 2 and 3. Any other direction gives entries 0 and 1. |
| `Dispatch.Run` | js/baronzr.js:150-156 | It throws iff the class names or the wrapper attributes cannot be read. Otherwise it is the builder applied to the selected pair. |
| `Dispatch.SelectStrategy` | js/baronzr.js:352-364 | Each of the three mode strings selects its own strategy, and any other value selects none. |
| `Dispatch.Apply` | js/baronzr.js:352-364 | `'create'`, `'wrap'` and `'use_existing'` give the tree, calls and engine handle of their own builder, run with the class pair the direction selects. The slot is `null` exactly for an unknown mode. The element throws iff the mode is known and either `scrollerClasses` is nullish, or the mode is `'wrap'` and `wrapperAttrs` is nullish. A throw leaves the element untouched, and the shared record is the merged one. |
| `Dispatch.VisitElement` | js/baronzr.js:346-364 | An element whose pass throws is left untouched and nothing is recorded for it. |
| `Dispatch.Baronzr` | js/baronzr.js:344-367 | One tree per target. On normal completion, one slot per target. No targets means no merge and no change. |
| `Dispatch.BaronzrElementwise` | js/baronzr.js:346-365 | Without validation, in a call that completes, tree i and slot i are those of dispatching element i alone with the merged record. The call log is the elements' own calls in target order. |
| `Dispatch.IndependentTrees` | js/baronzr.js:352-364 | Tree i is element i's own builder result. |
| `Dispatch.IndependentCalls` | js/baronzr.js:352-364 | The host calls are every element's own calls, joined in target order. |
| `Dispatch.OneMergeServesAll` | js/baronzr.js:346-365 | Without validation, the call equals dispatching every element with the single record merged once, and `options` ends up holding it. |
| `Dispatch.IndependentSlots` | js/baronzr.js:352-364 | Slot i is element i's own result, in order, and it is `null` iff the mode is unknown. |
| `Dispatch.ValidatedVisit` | js/baronzr.js:346-352 | With validation on, every element's pass throws and leaves the element and the call log as they were. It is a ReferenceError iff `scrollerClasses` is not an array, and `options` ends up `undefined` iff it is. |
| `Dispatch.ValidationAlwaysThrows` | js/baronzr.js:348-352 | With validation on, the first element throws and nothing is built. The shared record is cleared iff `scrollerClasses` was an array (TypeError), else ReferenceError. |
| `Dispatch.PoisonedCall` | js/baronzr.js:347-352 | When the merged record asks for validation and `scrollerClasses` is not an array, the call throws a ReferenceError and builds nothing. `options` is left with both keys as they were. |
| `Dispatch.ReferenceErrorSticks` | js/baronzr.js:347-352 | After that, every later call on at least one element that sets neither key throws the ReferenceError again and leaves `options` in the same state. |
| `Dispatch.LeftoverAcrossCalls` | js/baronzr.js:347 | A key one call sets and a later call omits is still in force during the later call. |
| `Dispatch.VerticalWrapExample` | js/baronzr.js:344-367 | From the defaults with `{direction:'v', creationMode:'wrap'}`: wrapper `#baronzr-wrapper` > `.vscroller` > [element, `.vscrollbar`], and the engine is bound on the wrapper with those selectors. |

## Left out

- jQuery and DOM internals are not modelled: HTML parsing, `.wrap`, `.prepend`, `.data` storage, and the handler and data clean-up `.empty()` performs. The wrapper's markup is tied to the built tree by `Strategies.WrapperHtmlIsShellMarkup`. Attribute values containing quotes, which would parse differently, are not modelled.
- Class selectors are modelled as class-list membership. Class names that are empty or hold whitespace or selector syntax, which jQuery would reject or read as a compound selector, are not modelled.
- Each target is modelled as a separate tree that is replaced by its result. Nested or overlapping targets and the rest of the document are not modelled.
- The Baron engine and `update()` are opaque. They appear only as recorded calls with their parameters.
- Animation timing, `fadeIn`/`fadeOut` durations and `Date.now()` are not modelled. The clock is the `now` of an enter event, and fade-in completion is an explicit event.
- The simple and hoverIntent handler pairs are recorded only as which pair is bound. Their fades have no state to model.
- `window.navigator` probing and the presence of `$.fn.hoverIntent` become booleans in `Host.Env`.
- JavaScript numbers are integers here. NaN, infinities and fractions are not modelled, and neither is a custom `toString` on objects.
- Nested arrays and objects in the options are values. Aliasing between the shared record and the caller's objects is not modelled.
- The exceptions (the `ops` ReferenceError and the later TypeErrors) are completions of kind `Throw`. Stack traces and messages are not modelled.
- `children.size()` (js/baronzr.js:55) exists only in jQuery before 3.0. The model assumes such a jQuery and reads it as the number of element children.
- Indexing a string `scrollerClasses` goes by Dafny characters, not UTF-16 code units. The two differ only for characters outside the Basic Multilingual Plane.
- `dist/js/baronzr.js` is an older build of the same plugin and is not part of this model.
- `js/blocks.js` (demo filler blocks) is not part of this model.

=== FILE: config.dfy ===
/**
 The plugin's options record: its defaults and the shallow merge `$.extend`
 performs on it (js/baronzr.js:30-41, js/baronzr.js:347).
 */
module Config {
  import opened JsValues

  /** A plain JavaScript object; a key that is absent reads as `undefined`. */
  type Options = map<string, JsValue>

  function Get(o: Options, k: string): JsValue
  {
    if k in o then o[k] else Undefined
  }

  /** The keys of `src` whose value `$.extend` copies (it skips `undefined`). */
  function CopiedKeys(src: Options): set<string>
  {
    set k | k in src && src[k] != Undefined
  }

  /**
   `$.extend(target, src)`: every key `src` defines overwrites the target's,
   every other key keeps the target's value.
   */
  function Extend(target: Options, src: Options): (r: Options)
    ensures r.Keys == target.Keys + CopiedKeys(src)
    ensures forall k :: Get(src, k) != Undefined ==> Get(r, k) == Get(src, k)
    ensures forall k :: Get(src, k) == Undefined ==> Get(r, k) == Get(target, k)
  {
    map k | k in target.Keys + CopiedKeys(src) ::
      if k in src && src[k] != Undefined then src[k] else target[k]
  }

  const DefaultScrollerClasses: JsValue :=
    Arr([Str("hscroller"), Str("hscrollbar"), Str("vscroller"), Str("vscrollbar")])

  const DefaultWrapperAttrs: JsValue :=
    Obj(map["elementId" := Str("baronzr-wrapper"), "elementClass" := Str("baronzr-wrapper")])

  /** The initial value of the shared `options` variable. */
  const Defaults: Options := map[
    "direction" := Str("h"),
    "creationMode" := Str("create"),
    "scrollerClasses" := DefaultScrollerClasses,
    "wrapperAttrs" := DefaultWrapperAttrs,
    "effect" := Str("hover"),
    "effectHover" := Str("fastout"),
    "validateOptions" := Bool(false)
  ]

  /** Merging the same overrides a second time changes nothing. */
  lemma ExtendIdempotent(target: Options, src: Options)
    ensures Extend(Extend(target, src), src) == Extend(target, src)
  {
    var once := Extend(target, src);
    var twice := Extend(once, src);
    assert twice.Keys == once.Keys;
    forall k | k in once
      ensures twice[k] == once[k]
    {
      assert Get(twice, k) == Get(once, k);
    }
  }

  /**
   A key set by an earlier merge survives a later merge that does not define
   it: the shared record carries leftovers from call to call.
   */
  lemma {:induction false} LeftoverSurvives(base: Options, first: Options, second: Options, k: string)
    requires Get(first, k) != Undefined
    requires Get(second, k) == Undefined
    ensures k in Extend(Extend(base, first), second)
    ensures Extend(Extend(base, first), second)[k] == first[k]
  {
    var mid := Extend(base, first);
    assert Get(mid, k) == Get(first, k);
    assert Get(Extend(mid, second), k) == Get(mid, k);
  }
}

=== FILE: dispatch.dfy ===
/**
 `Baronzr.run` (js/baronzr.js:149-161) and the plugin entry point
 `$.fn.baronzr` (js/baronzr.js:344-367), with the shared `options` variable
 threaded through explicitly as `Shared`.
 */
module Dispatch {
  import opened JsValues
  import opened Config
  import opened Validator
  import opened Dom
  import opened Host
  import opened Effects
  import opened Strategies

  /** The indices of the scroller and bar class names: 2 and 3 for `'v'`, 0 and 1 otherwise. */
  function ClassIndices(o: Options): (r: (nat, nat))
    ensures r.1 == r.0 + 1 && r.0 % 2 == 0 && r.1 < 4
    ensures r.0 == 2 <==> Get(o, "direction") == Str("v")
  {
    if Get(o, "direction") == Str("v") then (2, 3) else (0, 1)
  }

  /** The two class names `addScrolling` passes on, read and converted as `'.' + name` converts them. */
  function ClassPair(o: Options): (r: Completion<(string, string)>)
    ensures r.Throw? <==> IsNullish(Get(o, "scrollerClasses"))
    ensures r.Throw? ==> r.error == TypeError
  {
    var classes := Get(o, "scrollerClasses");
    var (i, j) := ClassIndices(o);
    match Index(classes, i)
    case Throw(e) => Throw(e)
    case Normal(scroller) =>
      match Index(classes, j)
      case Throw(e) => Throw(e)
      case Normal(bar) => Normal((ToJsString(scroller), ToJsString(bar)))
  }

  /** With an array of at least four strings, the pair is entries 2 and 3 for `'v'` and entries 0 and 1 for anything else. */
  lemma ClassPairFromArray(o: Options)
    requires Get(o, "scrollerClasses").Arr?
    requires var es := Get(o, "scrollerClasses").elems;
      |es| >= 4 && forall i :: 0 <= i < 4 ==> es[i].Str?
    ensures var es := Get(o, "scrollerClasses").elems;
      ClassPair(o) == if Get(o, "direction") == Str("v") then Normal((es[2].s, es[3].s)) else Normal((es[0].s, es[1].s))
  {
  }

  /** `Baronzr.run`: pick the class names by direction and call the builder. */
  function Run(o: Options, s: Strategy, env: Env, root: Node): (r: Completion<Added>)
    requires root.Element?
    ensures r.Throw? <==> IsNullish(Get(o, "scrollerClasses")) || (s == Wrapper && IsNullish(Get(o, "wrapperAttrs")))
    ensures r.Normal? ==> r == Add(s, o, env, root, ClassPair(o).value.0, ClassPair(o).value.1)
  {
    match ClassPair(o)
    case Throw(e) => Throw(e)
    case Normal(names) => Add(s, o, env, root, names.0, names.1)
  }

  /** The `switch (options.creationMode)` of the entry point; `None` is its `default` branch. */
  function SelectStrategy(mode: JsValue): (r: Option<Strategy>)
    ensures r.None? <==> !ValidCreationMode(mode)
    ensures r == Some(Creator) <==> mode == Str("create")
    ensures r == Some(Wrapper) <==> mode == Str("wrap")
    ensures r == Some(UseExisting) <==> mode == Str("use_existing")
  {
    if mode == Str("create") then Some(Creator)
    else if mode == Str("wrap") then Some(Wrapper)
    else if mode == Str("use_existing") then Some(UseExisting)
    else None
  }

  /** The module-level `options` variable: a record, or `undefined` once validation has replaced it. */
  datatype Shared = Live(options: Options) | Cleared

  /** What `$.extend(options, opts)` extends: `$.extend` turns an `undefined` target into `{}`. */
  function Target(s: Shared): Options
  {
    if s.Live? then s.options else map[]
  }

  /** One slot of the returned collection: an engine handle or `null`. */
  datatype Slot = NullSlot | BaronSlot(baron: Baron)

  /** One pass of the `each` callback on one element. */
  datatype Visit = Visit(shared: Shared, tree: Node, calls: seq<HostCall>, completion: Completion<Slot>)

  /** The `switch` on the creation mode, for an options record that is not validated. */
  function Apply(o: Options, env: Env, el: Node): (r: Visit)
    requires el.Element?
    ensures r.shared == Live(o)
    ensures r.completion.Normal? && r.completion.value == NullSlot <==> SelectStrategy(Get(o, "creationMode")).None?
    ensures r.completion.Throw? ==> r.tree == el && r.calls == []
    ensures r.completion.Throw? <==>
      ValidCreationMode(Get(o, "creationMode"))
      && (IsNullish(Get(o, "scrollerClasses"))
          || (Get(o, "creationMode") == Str("wrap") && IsNullish(Get(o, "wrapperAttrs"))))
    ensures Get(o, "creationMode") == Str("create") && ClassPair(o).Normal? ==>
      var a := CreateAdd(o, env, el, ClassPair(o).value.0, ClassPair(o).value.1);
      r == Visit(Live(o), a.tree, a.calls, Normal(BaronSlot(a.baron)))
    ensures Get(o, "creationMode") == Str("wrap") && ClassPair(o).Normal? && r.completion.Normal? ==>
      var a := WrapAdd(o, env, el, ClassPair(o).value.0, ClassPair(o).value.1);
      a.Normal? && r == Visit(Live(o), a.value.tree, a.value.calls, Normal(BaronSlot(a.value.baron)))
    ensures Get(o, "creationMode") == Str("use_existing") && ClassPair(o).Normal? ==>
      var a := UseExistingAdd(o, env, el, ClassPair(o).value.0, ClassPair(o).value.1);
      r == Visit(Live(o), a.tree, a.calls, Normal(BaronSlot(a.baron)))
  {
    match SelectStrategy(Get(o, "creationMode"))
    case None => Visit(Live(o), el, [], Normal(NullSlot))
    case Some(s) =>
      match Run(o, s, env, el)
      case Throw(e) => Visit(Live(o), el, [], Throw(e))
      case Normal(a) => Visit(Live(o), a.tree, a.calls, Normal(BaronSlot(a.baron)))
  }

  /**
   The body of the `each` callback: merge the overrides into the shared
   record, validate if asked, then dispatch. `validateOptions` returns
   nothing, so after a normal return `options` is `undefined` and reading
   `options.creationMode` throws a TypeError.
   */
  function VisitElement(s: Shared, ov: Options, env: Env, el: Node): (r: Visit)
    requires el.Element?
    ensures r.completion.Throw? ==> r.tree == el && r.calls == []
  {
    var merged := Extend(Target(s), ov);
    if Truthy(Get(merged, "validateOptions")) then
      var v := ValidateOptions(merged);
      match v.completion
      case Throw(e) => Visit(Live(v.options), el, [], Throw(e))
      case Normal(_) => Visit(Cleared, el, [], Throw(TypeError))
    else Apply(merged, env, el)
  }

  /** The result of one `$(targets).baronzr(opts)` call. */
  datatype Call = Call(shared: Shared, trees: seq<Node>, calls: seq<HostCall>, completion: Completion<seq<Slot>>)

  predicate AllElements(ns: seq<Node>)
  {
    forall i :: 0 <= i < |ns| ==> ns[i].Element?
  }

  /** The call ends with the exception of element `v`; the elements after it are not visited. */
  function Stop(v: Visit, later: seq<Node>): (r: Call)
    requires v.completion.Throw?
    ensures |r.trees| == |later| + 1 && r.completion == Throw(v.completion.error)
  {
    Call(v.shared, [v.tree] + later, v.calls, Throw(v.completion.error))
  }

  /** Element `v` completed; `rest` is the call over the elements after it, started from its shared record. */
  function Then(v: Visit, rest: Call): (r: Call)
    requires v.completion.Normal?
    ensures r.shared == rest.shared && |r.trees| == |rest.trees| + 1
    ensures r.completion.Normal? <==> rest.completion.Normal?
    ensures r.completion.Normal? ==> |r.completion.value| == |rest.completion.value| + 1
  {
    Call(rest.shared, [v.tree] + rest.trees, v.calls + rest.calls,
      match rest.completion
      case Normal(slots) => Normal([v.completion.value] + slots)
      case Throw(e) => Throw(e))
  }

  /**
   `$.fn.baronzr`: the `each` loop over the targets in order. An exception
   ends the call; elements already processed keep their new structure.
   */
  function Baronzr(s: Shared, targets: seq<Node>, ov: Options, env: Env): (r: Call)
    requires AllElements(targets)
    ensures |r.trees| == |targets|
    ensures r.completion.Normal? ==> |r.completion.value| == |targets|
    ensures targets == [] ==> r == Call(s, [], [], Normal([]))
    decreases |targets|
  {
    if targets == [] then Call(s, [], [], Normal([]))
    else
      var v := VisitElement(s, ov, env, targets[0]);
      if v.completion.Throw? then Stop(v, targets[1..])
      else Then(v, Baronzr(v.shared, targets[1..], ov, env))
  }

  /**
   The same call described without the shared variable: every element is
   dispatched with the one record `o`, each independently of the others.
   */
  function Independent(o: Options, env: Env, targets: seq<Node>): (r: Call)
    requires AllElements(targets)
    ensures |r.trees| == |targets|
    ensures r.completion.Normal? ==> |r.completion.value| == |targets|
    decreases |targets|
  {
    if targets == [] then Call(Live(o), [], [], Normal([]))
    else
      var v := Apply(o, env, targets[0]);
      if v.completion.Throw? then Stop(v, targets[1..])
      else Then(v, Independent(o, env, targets[1..]))
  }

  /**
   Without validation, re-merging the same overrides for every element is
   harmless: the call behaves as if the record were merged once and every
   element dispatched with it, and the shared variable ends up holding it.
   */
  lemma {:induction false} OneMergeServesAll(s: Shared, targets: seq<Node>, ov: Options, env: Env)
    requires AllElements(targets) && |targets| > 0
    requires !Truthy(Get(Extend(Target(s), ov), "validateOptions"))
    ensures Baronzr(s, targets, ov, env) == Independent(Extend(Target(s), ov), env, targets)
    decreases |targets|
  {
    var o := Extend(Target(s), ov);
    var v := VisitElement(s, ov, env, targets[0]);
    assert v == Apply(o, env, targets[0]);
    if v.completion.Normal? {
      var tail := targets[1..];
      if tail == [] {
        assert Baronzr(Live(o), tail, ov, env) == Independent(o, env, tail);
      } else {
        ExtendIdempotent(Target(s), ov);
        assert Extend(Target(Live(o)), ov) == o;
        OneMergeServesAll(Live(o), tail, ov, env);
      }
    }
  }

  /** The host calls of every element's own dispatch, in target order. */
  function CallLog(o: Options, env: Env, targets: seq<Node>): seq<HostCall>
    requires AllElements(targets)
    decreases |targets|
  {
    if targets == [] then [] else Apply(o, env, targets[0]).calls + CallLog(o, env, targets[1..])
  }

  /** Per element: tree i is what dispatching element i alone produced. */
  lemma {:induction false} IndependentTrees(o: Options, env: Env, targets: seq<Node>, i: int)
    requires AllElements(targets) && 0 <= i < |targets|
    requires Independent(o, env, targets).completion.Normal?
    ensures Independent(o, env, targets).trees[i] == Apply(o, env, targets[i]).tree
    decreases |targets|
  {
    var v := Apply(o, env, targets[0]);
    var rest := Independent(o, env, targets[1..]);
    assert v.completion.Normal? && Independent(o, env, targets) == Then(v, rest);
    if i > 0 {
      IndependentTrees(o, env, targets[1..], i - 1);
      assert targets[1..][i - 1] == targets[i];
    }
  }

  /** The call log is every element's own calls, joined in target order. */
  lemma {:induction false} IndependentCalls(o: Options, env: Env, targets: seq<Node>)
    requires AllElements(targets)
    requires Independent(o, env, targets).completion.Normal?
    ensures Independent(o, env, targets).calls == CallLog(o, env, targets)
    decreases |targets|
  {
    if targets != [] {
      var v := Apply(o, env, targets[0]);
      var rest := Independent(o, env, targets[1..]);
      assert v.completion.Normal? && Independent(o, env, targets) == Then(v, rest);
      IndependentCalls(o, env, targets[1..]);
    }
  }

  /**
   Without validation, a call that completes gives element i the tree and
   slot of dispatching it alone with the merged record, and its call log is
   the elements' calls in target order.
   */
  lemma BaronzrElementwise(s: Shared, targets: seq<Node>, ov: Options, env: Env, i: int)
    requires AllElements(targets) && 0 <= i < |targets|
    requires !Truthy(Get(Extend(Target(s), ov), "validateOptions"))
    requires Baronzr(s, targets, ov, env).completion.Normal?
    ensures var o := Extend(Target(s), ov);
      var r := Baronzr(s, targets, ov, env);
      && r.trees[i] == Apply(o, env, targets[i]).tree
      && Apply(o, env, targets[i]).completion == Normal(r.completion.value[i])
      && r.calls == CallLog(o, env, targets)
  {
    var o := Extend(Target(s), ov);
    OneMergeServesAll(s, targets, ov, env);
    IndependentTrees(o, env, targets, i);
    IndependentSlots(o, env, targets, i);
    IndependentCalls(o, env, targets);
  }

  /** Per element: the slot is null exactly for an unknown mode, and otherwise is the handle the builder returned. */
  lemma IndependentSlots(o: Options, env: Env, targets: seq<Node>, i: int)
    requires AllElements(targets) && 0 <= i < |targets|
    requires Independent(o, env, targets).completion.Normal?
    ensures var slots := Independent(o, env, targets).completion.value;
      && |slots| == |targets|
      && Apply(o, env, targets[i]).completion == Normal(slots[i])
      && (slots[i] == NullSlot <==> !ValidCreationMode(Get(o, "creationMode")))
  {
    IndependentSlot(o, env, targets, i);
    assert SelectStrategy(Get(o, "creationMode")).None? <==> !ValidCreationMode(Get(o, "creationMode"));
  }

  /** Slot i of a completed call is element i's own completion. */
  lemma {:induction false} IndependentSlot(o: Options, env: Env, targets: seq<Node>, i: int)
    requires AllElements(targets) && 0 <= i < |targets|
    requires Independent(o, env, targets).completion.Normal?
    ensures var slots := Independent(o, env, targets).completion.value;
      |slots| == |targets| && Apply(o, env, targets[i]).completion == Normal(slots[i])
    decreases |targets|
  {
    var v := Apply(o, env, targets[0]);
    var rest := Independent(o, env, targets[1..]);
    assert v.completion.Normal? && Independent(o, env, targets) == Then(v, rest);
    assert rest.completion.Normal?;
    if i > 0 {
      IndependentSlot(o, env, targets[1..], i - 1);
      assert targets[1..][i - 1] == targets[i];
    }
  }

  /**
   With validation switched on, the first element always ends the call with
   an exception and nothing is built: a ReferenceError when `scrollerClasses`
   is not an array (the shared record keeps the validators' edits), a
   TypeError otherwise (the shared record is gone).
   */
  lemma ValidationAlwaysThrows(s: Shared, targets: seq<Node>, ov: Options, env: Env)
    requires AllElements(targets) && |targets| > 0
    requires Truthy(Get(Extend(Target(s), ov), "validateOptions"))
    ensures var r := Baronzr(s, targets, ov, env);
      && r.completion.Throw? && r.calls == [] && r.trees == targets
      && (r.shared == Cleared <==> Get(Extend(Target(s), ov), "scrollerClasses").Arr?)
      && (r.completion.error == ReferenceError <==> !Get(Extend(Target(s), ov), "scrollerClasses").Arr?)
  {
    var v := VisitElement(s, ov, env, targets[0]);
    ValidatedVisit(s, ov, env, targets[0]);
    var r := Stop(v, targets[1..]);
    assert Baronzr(s, targets, ov, env) == r;
    assert r.trees == targets by {
      assert [targets[0]] + targets[1..] == targets;
    }
    assert r.shared == v.shared && r.calls == [] && r.completion == Throw(v.completion.error);
  }

  /** One element under validation: it throws, is left as it was, and decides the shared record. */
  lemma ValidatedVisit(s: Shared, ov: Options, env: Env, el: Node)
    requires el.Element?
    requires Truthy(Get(Extend(Target(s), ov), "validateOptions"))
    ensures var r := VisitElement(s, ov, env, el);
      var classes := Get(Extend(Target(s), ov), "scrollerClasses");
      && r.completion.Throw? && r.tree == el && r.calls == []
      && (r.shared == Cleared <==> classes.Arr?)
      && (r.completion.error == ReferenceError <==> !classes.Arr?)
      && (!classes.Arr? ==> r.shared == Live(ValidateOptions(Extend(Target(s), ov)).options))
  {
    var merged := Extend(Target(s), ov);
    var v := ValidateOptions(merged);
    assert v.completion.Throw? <==> !Get(merged, "scrollerClasses").Arr?;
  }

  /** A record that asks for validation but whose `scrollerClasses` is not an array. */
  predicate Poisoned(o: Options)
  {
    Truthy(Get(o, "validateOptions")) && !Get(o, "scrollerClasses").Arr?
  }

  /**
   A call whose merged record is poisoned throws the `ops` ReferenceError at
   its first element, builds nothing, and leaves a poisoned record in `options`.
   */
  lemma PoisonedCall(s: Shared, targets: seq<Node>, ov: Options, env: Env)
    requires AllElements(targets) && |targets| > 0
    requires Poisoned(Extend(Target(s), ov))
    ensures var r := Baronzr(s, targets, ov, env);
      && r.completion == Throw(ReferenceError) && r.trees == targets && r.calls == []
      && r.shared.Live? && Poisoned(r.shared.options)
  {
    var merged := Extend(Target(s), ov);
    ValidationAlwaysThrows(s, targets, ov, env);
    var v := VisitElement(s, ov, env, targets[0]);
    ValidatedVisit(s, ov, env, targets[0]);
    var after := ValidateOptions(merged);
    assert ThrownRecord(merged, after.options);
    assert Get(after.options, "validateOptions") == Get(merged, "validateOptions");
    assert Get(after.options, "scrollerClasses") == Get(merged, "scrollerClasses");
    assert Baronzr(s, targets, ov, env) == Stop(v, targets[1..]);
  }

  /**
   Once `options` is poisoned, every later call that sets neither
   `validateOptions` nor `scrollerClasses` throws the ReferenceError again and
   leaves `options` poisoned.
   */
  lemma ReferenceErrorSticks(s: Shared, targets: seq<Node>, ov: Options, env: Env)
    requires AllElements(targets) && |targets| > 0
    requires s.Live? && Poisoned(s.options)
    requires Get(ov, "validateOptions") == Undefined && Get(ov, "scrollerClasses") == Undefined
    ensures var r := Baronzr(s, targets, ov, env);
      && r.completion == Throw(ReferenceError) && r.trees == targets && r.calls == []
      && r.shared.Live? && Poisoned(r.shared.options)
  {
    var merged := Extend(s.options, ov);
    assert Get(merged, "validateOptions") == Get(s.options, "validateOptions");
    assert Get(merged, "scrollerClasses") == Get(s.options, "scrollerClasses");
    PoisonedCall(s, targets, ov, env);
  }

  /**
   Leftovers: a key one call sets and a later call leaves out is still in
   force for the later call's elements.
   */
  lemma {:induction false} LeftoverAcrossCalls(s: Shared, first: seq<Node>, ov1: Options, second: seq<Node>, ov2: Options, env: Env, k: string)
    requires AllElements(first) && |first| > 0 && AllElements(second) && |second| > 0
    requires !Truthy(Get(Extend(Target(s), ov1), "validateOptions"))
    requires Get(ov1, k) != Undefined && Get(ov2, k) == Undefined
    requires k != "validateOptions"
    ensures var r1 := Baronzr(s, first, ov1, env);
      r1.shared.Live? && !Truthy(Get(Extend(Target(r1.shared), ov2), "validateOptions"))
      ==> var r2 := Baronzr(r1.shared, second, ov2, env);
        r2.shared.Live? && k in r2.shared.options && r2.shared.options[k] == ov1[k]
  {
    var r1 := Baronzr(s, first, ov1, env);
    OneMergeServesAll(s, first, ov1, env);
    var o1 := Extend(Target(s), ov1);
    IndependentShared(o1, env, first);
    assert r1.shared == Live(o1);
    if !Truthy(Get(Extend(Target(r1.shared), ov2), "validateOptions")) {
      OneMergeServesAll(r1.shared, second, ov2, env);
      IndependentShared(Extend(o1, ov2), env, second);
      LeftoverSurvives(Target(s), ov1, ov2, k);
    }
  }

  lemma {:induction false} IndependentShared(o: Options, env: Env, targets: seq<Node>)
    requires AllElements(targets)
    ensures Independent(o, env, targets).shared == Live(o)
    decreases |targets|
  {
    if targets != [] && Apply(o, env, targets[0]).completion.Normal? {
      IndependentShared(o, env, targets[1..]);
    }
  }

  /**
   A worked example: a default record, one element, overrides
   `{direction: 'v', creationMode: 'wrap'}`. The element ends up in a wrapper
   with id `baronzr-wrapper`, inside a `vscroller` next to a `vscrollbar`,
   and the engine is bound on the wrapper with those two selectors.
   */
  lemma VerticalWrapExample(el: Node, env: Env)
    requires el.Element?
    ensures var ov := map["direction" := Str("v"), "creationMode" := Str("wrap")];
      var o := Extend(Defaults, ov);
      var p := EngineParams(WrapperElement, "vscroller", "vscrollbar", o);
      var scroller := Element("div", None, Some("vscroller"), map[], [el, Bar("vscrollbar", "none")]);
      var wrapper := Element("div", Some("baronzr-wrapper"), Some("baronzr-wrapper"), map["position" := "relative"], [scroller]);
      && Baronzr(Live(Defaults), [el], ov, env)
         == Call(Live(o), [wrapper], [BaronBind(WrapperElement, p), BaronUpdate, BindHover(WrapperElement, FastoutHover)], Normal([BaronSlot(Baron(p))]))
      && Get(p, "root") == Ref(WrapperElement)
      && Get(p, "scroller") == Str(".vscroller")
      && Get(p, "bar") == Str(".vscrollbar")
  {
    var ov := map["direction" := Str("v"), "creationMode" := Str("wrap")];
    var o := Extend(Defaults, ov);
    ExampleOptions(o, ov);
    assert Target(Live(Defaults)) == Defaults;
    ExampleApply(o, env, el);
    SingleTarget(Live(Defaults), el, ov, env);
    VerticalParams(o);
  }

  // Proof steps for VerticalWrapExample. Each lemma from here to the end of the
  // module settles one fact of the example: a literal read, a string join, or
  // one dispatch step. Each is a small proof of its own, so no single proof has
  // to unfold the whole dispatch chain at once.

  /** Without `root`, `scroller` or `bar` of its own, the record hands the engine the wrapper and the vertical selectors. */
  lemma VerticalParams(o: Options)
    requires Get(o, "root") == Undefined && Get(o, "scroller") == Undefined && Get(o, "bar") == Undefined
    ensures var p := EngineParams(WrapperElement, "vscroller", "vscrollbar", o);
      && Get(p, "root") == Ref(WrapperElement)
      && Get(p, "scroller") == Str(".vscroller")
      && Get(p, "bar") == Str(".vscrollbar")
  {
    VerticalSelectors();
  }

  /** The example's record dispatches the element to the wrapper builder with the vertical classes. */
  lemma ExampleApply(o: Options, env: Env, el: Node)
    requires el.Element?
    requires Get(o, "direction") == Str("v") && Get(o, "creationMode") == Str("wrap")
    requires Get(o, "scrollerClasses") == DefaultScrollerClasses
    requires Get(o, "wrapperAttrs") == DefaultWrapperAttrs
    requires Get(o, "effect") == Str("hover") && Get(o, "effectHover") == Str("fastout")
    requires Get(o, "root") == Undefined && Get(o, "scroller") == Undefined && Get(o, "bar") == Undefined
    ensures var p := EngineParams(WrapperElement, "vscroller", "vscrollbar", o);
      var scroller := Element("div", None, Some("vscroller"), map[], [el, Bar("vscrollbar", "none")]);
      var wrapper := Element("div", Some("baronzr-wrapper"), Some("baronzr-wrapper"), map["position" := "relative"], [scroller]);
      Apply(o, env, el) == Visit(Live(o), wrapper, [BaronBind(WrapperElement, p), BaronUpdate, BindHover(WrapperElement, FastoutHover)], Normal(BaronSlot(Baron(p))))
  {
    ExampleClassPair(o);
    WrapExampleShape(o, env, el);
    ApplyWrap(o, env, el, "vscroller", "vscrollbar");
  }

  /** The default class names, read for the vertical direction. */
  lemma ExampleClassPair(o: Options)
    requires Get(o, "direction") == Str("v")
    requires Get(o, "scrollerClasses") == DefaultScrollerClasses
    ensures ClassPair(o) == Normal(("vscroller", "vscrollbar"))
  {
    ClassPairFromArray(o);
  }

  lemma ApplyWrap(o: Options, env: Env, el: Node, scrollerClass: string, barClass: string)
    requires el.Element?
    requires Get(o, "creationMode") == Str("wrap")
    requires ClassPair(o) == Normal((scrollerClass, barClass))
    requires WrapAdd(o, env, el, scrollerClass, barClass).Normal?
    ensures var a := WrapAdd(o, env, el, scrollerClass, barClass).value;
      Apply(o, env, el) == Visit(Live(o), a.tree, a.calls, Normal(BaronSlot(a.baron)))
  {
    assert SelectStrategy(Get(o, "creationMode")) == Some(Wrapper);
    assert Run(o, Wrapper, env, el) == WrapAdd(o, env, el, scrollerClass, barClass);
  }

  /** A call on one element whose dispatch completes returns that element's slot and structure. */
  lemma SingleTarget(s: Shared, el: Node, ov: Options, env: Env)
    requires el.Element?
    requires !Truthy(Get(Extend(Target(s), ov), "validateOptions"))
    requires Apply(Extend(Target(s), ov), env, el).completion.Normal?
    ensures var v := Apply(Extend(Target(s), ov), env, el);
      Baronzr(s, [el], ov, env) == Call(Live(Extend(Target(s), ov)), [v.tree], v.calls, Normal([v.completion.value]))
  {
    OneMergeServesAll(s, [el], ov, env);
    SingleIndependent(Extend(Target(s), ov), env, el);
  }

  lemma SingleIndependent(o: Options, env: Env, el: Node)
    requires el.Element?
    requires Apply(o, env, el).completion.Normal?
    ensures var v := Apply(o, env, el);
      Independent(o, env, [el]) == Call(Live(o), [v.tree], v.calls, Normal([v.completion.value]))
  {
    var v := Apply(o, env, el);
    assert [el][1..] == [];
    var rest := Independent(o, env, []);
    assert rest == Call(Live(o), [], [], Normal([]));
    assert Independent(o, env, [el]) == Then(v, rest);
    assert [v.tree] + rest.trees == [v.tree];
    assert v.calls + rest.calls == v.calls;
    assert [v.completion.value] + rest.completion.value == [v.completion.value];
  }

  lemma WrapExampleShape(o: Options, env: Env, el: Node)
    requires Get(o, "wrapperAttrs") == DefaultWrapperAttrs
    requires Get(o, "effect") == Str("hover") && Get(o, "effectHover") == Str("fastout")
    requires Get(o, "root") == Undefined && Get(o, "scroller") == Undefined && Get(o, "bar") == Undefined
    ensures var a := WrapAdd(o, env, el, "vscroller", "vscrollbar");
      var p := EngineParams(WrapperElement, "vscroller", "vscrollbar", o);
      var scroller := Element("div", None, Some("vscroller"), map[], [el, Bar("vscrollbar", "none")]);
      && a == Normal(Added(
        Element("div", Some("baronzr-wrapper"), Some("baronzr-wrapper"), map["position" := "relative"], [scroller]),
        Baron(p),
        [BaronBind(WrapperElement, p), BaronUpdate, BindHover(WrapperElement, FastoutHover)]))
  {
    DefaultWrapperAttrsRead(o);
    FastoutPlan(o, env, WrapperElement);
    var a := WrapAdd(o, env, el, "vscroller", "vscrollbar");
    var p := EngineParams(WrapperElement, "vscroller", "vscrollbar", o);
    assert a.Normal?;
    var w := a.value.tree;
    var scroller := Element("div", None, Some("vscroller"), map[], [el, Bar("vscrollbar", "none")]);
    assert w.children[0] == scroller;
    assert w.children == [scroller];
    var wrapper := Element("div", Some("baronzr-wrapper"), Some("baronzr-wrapper"), map["position" := "relative"], [scroller]);
    assert w == wrapper;
    assert a.value.baron == Baron(p);
    assert a.value.calls == [BaronBind(WrapperElement, p), BaronUpdate, BindHover(WrapperElement, FastoutHover)];
    assert a.value == Added(wrapper, Baron(p), [BaronBind(WrapperElement, p), BaronUpdate, BindHover(WrapperElement, FastoutHover)]);
  }

  /** The selectors built from the vertical class names. */
  lemma VerticalSelectors()
    ensures "." + "vscroller" == ".vscroller"
    ensures "." + "vscrollbar" == ".vscrollbar"
  {
    assert ("." + "vscroller")[1..] == "vscroller";
    assert ("." + "vscrollbar")[1..] == "vscrollbar";
  }

  /** The default wrapper attributes name the wrapper `baronzr-wrapper` by id and by class. */
  lemma DefaultWrapperAttrsRead(o: Options)
    requires Get(o, "wrapperAttrs") == DefaultWrapperAttrs
    ensures WrapperAttr(o, "elementId") == Normal(Some("baronzr-wrapper"))
    ensures WrapperAttr(o, "elementClass") == Normal(Some("baronzr-wrapper"))
  {
  }

  /** The default effect pair hides the bar and binds the fastout hover handlers. */
  lemma FastoutPlan(o: Options, env: Env, on: HostRef)
    requires Get(o, "effect") == Str("hover") && Get(o, "effectHover") == Str("fastout")
    ensures SetEffect(o, env, on) == EffectPlan("none", [BindHover(on, FastoutHover)])
  {
  }

  lemma ExampleOptions(o: Options, ov: Options)
    requires ov == map["direction" := Str("v"), "creationMode" := Str("wrap")]
    requires o == Extend(Defaults, ov)
    ensures Get(o, "validateOptions") == Bool(false)
    ensures Get(o, "direction") == Str("v")
    ensures Get(o, "creationMode") == Str("wrap")
    ensures Get(o, "scrollerClasses") == DefaultScrollerClasses
    ensures Get(o, "wrapperAttrs") == DefaultWrapperAttrs
    ensures Get(o, "effect") == Str("hover") && Get(o, "effectHover") == Str("fastout")
    ensures Get(o, "root") == Undefined && Get(o, "scroller") == Undefined && Get(o, "bar") == Undefined
  {
    DefaultsRead();
    ExampleOverridesRead(ov);
  }

  lemma DefaultsRead()
    ensures Get(Defaults, "validateOptions") == Bool(false)
    ensures Get(Defaults, "scrollerClasses") == DefaultScrollerClasses
    ensures Get(Defaults, "wrapperAttrs") == DefaultWrapperAttrs
    ensures Get(Defaults, "effect") == Str("hover") && Get(Defaults, "effectHover") == Str("fastout")
    ensures Get(Defaults, "root") == Undefined && Get(Defaults, "scroller") == Undefined && Get(Defaults, "bar") == Undefined
  {
  }

  lemma ExampleOverridesRead(ov: Options)
    requires ov == map["direction" := Str("v"), "creationMode" := Str("wrap")]
    ensures Get(ov, "direction") == Str("v") && Get(ov, "creationMode") == Str("wrap")
    ensures Get(ov, "validateOptions") == Undefined
    ensures Get(ov, "scrollerClasses") == Undefined
    ensures Get(ov, "wrapperAttrs") == Undefined
    ensures Get(ov, "effect") == Undefined && Get(ov, "effectHover") == Undefined
    ensures Get(ov, "root") == Undefined && Get(ov, "scroller") == Undefined && Get(ov, "bar") == Undefined
  {
  }
}

=== FILE: dom.dfy ===
/**
 A small DOM: elements with an id, a class attribute, inline style and
 children, and text nodes. Only the jQuery operations the plugin uses are
 given meaning here: `.children()`, class selectors, `.css(...)`, and the
 markup a node is written as.
 */
module Dom {
  import opened JsValues

  datatype Node =
    | Element(tag: string, id: Option<string>, cls: Option<string>, style: map<string, string>, children: seq<Node>)
    | Text(text: string)

  /** `<div class="c"></div>`, as `$('<div class="' + c + '">')` creates it. */
  function Div(c: string): (r: Node)
    ensures r.Element? && r.tag == "div" && r.id == None && r.cls == Some(c)
    ensures r.style == map[] && r.children == []
  {
    Element("div", None, Some(c), map[], [])
  }

  /** `.children()`: the element children, in document order; text nodes are skipped. */
  function ElementChildren(cs: seq<Node>): (r: seq<Node>)
    ensures |r| <= |cs|
    ensures forall n :: n in r <==> n in cs && n.Element?
    ensures |r| == 0 <==> forall i :: 0 <= i < |cs| ==> cs[i].Text?
    ensures (forall i :: 0 <= i < |cs| ==> cs[i].Element?) ==> r == cs
    decreases |cs|
  {
    if cs == [] then []
    else if cs[0].Element? then [cs[0]] + ElementChildren(cs[1..])
    else ElementChildren(cs[1..])
  }

  /** ElementChildren distributes over concatenation, so it keeps the relative order of elements. */
  lemma {:induction false} ElementChildrenAppend(a: seq<Node>, b: seq<Node>)
    ensures ElementChildren(a + b) == ElementChildren(a) + ElementChildren(b)
    decreases |a|
  {
    if a == [] {
      assert a + b == b;
    } else {
      assert (a + b)[1..] == a[1..] + b;
      ElementChildrenAppend(a[1..], b);
    }
  }

  predicate IsSpace(c: char)
  {
    c == ' ' || c == '\t' || c == '\n' || c == '\r' || c == '\U{000C}'
  }

  /** The longest prefix of `s` that holds no whitespace. */
  function WordPrefix(s: string): (w: string)
    ensures |w| <= |s| && w == s[..|w|]
    ensures forall i :: 0 <= i < |w| ==> !IsSpace(w[i])
    ensures |w| < |s| ==> IsSpace(s[|w|])
    decreases |s|
  {
    if s == [] || IsSpace(s[0]) then [] else [s[0]] + WordPrefix(s[1..])
  }

  /** The class list of a class attribute: its whitespace-separated words. */
  function ClassList(s: string): (r: seq<string>)
    ensures forall i :: 0 <= i < |r| ==> |r[i]| > 0
    ensures forall i, j :: 0 <= i < |r| && 0 <= j < |r[i]| ==> !IsSpace(r[i][j])
    decreases |s|
  {
    if s == [] then []
    else if IsSpace(s[0]) then ClassList(s[1..])
    else
      var w := WordPrefix(s);
      [w] + ClassList(s[|w|..])
  }

  /**
   `w` occurs in `s` at index `i` as a whole word: non-empty, free of
   whitespace, and bounded by whitespace or the ends of `s` on both sides.
   This is the independent reading of a class attribute's word list.
   */
  ghost predicate WordAt(s: string, i: nat, w: string)
  {
    && 0 < |w| && i + |w| <= |s| && w == s[i..i + |w|]
    && (forall j :: 0 <= j < |w| ==> !IsSpace(w[j]))
    && (i == 0 || IsSpace(s[i - 1]))
    && (i + |w| == |s| || IsSpace(s[i + |w|]))
  }

  /** A whole word of `s[k..]` is a whole word of `s`, when its left edge is still whitespace or the start. */
  lemma ShiftWord(s: string, k: nat, i: nat, w: string)
    requires 0 < k <= |s|
    requires WordAt(s[k..], i, w) && (i > 0 || IsSpace(s[k - 1]))
    ensures WordAt(s, k + i, w)
  {
    assert s[k..][i..i + |w|] == s[k + i..k + i + |w|];
  }

  /** A whole word of `s` that starts at or after `k` is a whole word of `s[k..]`. */
  lemma UnshiftWord(s: string, k: nat, i: nat, w: string)
    requires k <= i
    requires WordAt(s, i, w)
    ensures WordAt(s[k..], i - k, w)
  {
    assert s[k..][i - k..i - k + |w|] == s[i..i + |w|];
  }

  /** Every whole word of the attribute is in its class list. */
  lemma {:induction false} WordIsListed(s: string, i: nat, w: string)
    requires WordAt(s, i, w)
    ensures w in ClassList(s)
    decreases |s|
  {
    if IsSpace(s[0]) {
      assert w[0] == s[i];
      UnshiftWord(s, 1, i, w);
      WordIsListed(s[1..], i - 1, w);
    } else {
      var p := WordPrefix(s);
      if i == 0 {
        assert forall j :: 0 <= j < |w| ==> s[j] == w[j];
        assert forall j :: 0 <= j < |p| ==> s[j] == p[j];
        assert w == p;
      } else {
        assert forall j :: 0 <= j < |p| ==> s[j] == p[j];
        UnshiftWord(s, |p|, i, w);
        WordIsListed(s[|p|..], i - |p|, w);
      }
    }
  }

  /** Every entry of the class list is a whole word of the attribute. */
  lemma {:induction false} ListedIsWord(s: string, w: string)
    requires w in ClassList(s)
    ensures exists i :: WordAt(s, i, w)
    decreases |s|
  {
    if IsSpace(s[0]) {
      ListedIsWord(s[1..], w);
      var i :| WordAt(s[1..], i, w);
      ShiftWord(s, 1, i, w);
    } else {
      var p := WordPrefix(s);
      if w == p {
        assert WordAt(s, 0, w);
      } else {
        ListedIsWord(s[|p|..], w);
        var i :| WordAt(s[|p|..], i, w);
        assert |p| < |s| && IsSpace(s[|p|]);
        ShiftWord(s, |p|, i, w);
      }
    }
  }

  /** Whether the selector `.c` matches the node itself. */
  predicate HasClass(n: Node, c: string)
  {
    n.Element? && n.cls.Some? && c in ClassList(n.cls.value)
  }

  /** Equal up to inline styles: same kinds, tags, ids, classes, texts and children. */
  predicate SameShape(a: Node, b: Node)
    decreases a
  {
    match a
    case Text(t) => b == Text(t)
    case Element(tag, id, cls, _, ch) =>
      && b.Element? && b.tag == tag && b.id == id && b.cls == cls
      && |b.children| == |ch|
      && forall i :: 0 <= i < |ch| ==> SameShape(ch[i], b.children[i])
  }

  /**
   `.css(prop, val)` on every element matching `.c` below `n`, and on `n`
   itself when `self` holds; `$('.' + c, n)` with `self` false.
   */
  function StyleMatching(n: Node, c: string, prop: string, val: string, self: bool): (r: Node)
    ensures SameShape(n, r)
    ensures self && HasClass(n, c) ==> r.style == n.style[prop := val]
    ensures n.Element? && !(self && HasClass(n, c)) ==> r.style == n.style
    decreases n
  {
    match n
    case Text(_) => n
    case Element(tag, id, cls, st, ch) =>
      var ch' := seq(|ch|, i requires 0 <= i < |ch| => StyleMatching(ch[i], c, prop, val, true));
      Element(tag, id, cls, if self && HasClass(n, c) then st[prop := val] else st, ch')
  }

  /** Whether the child indices in `p` lead from `n` down to a node. */
  predicate ValidPath(n: Node, p: seq<nat>)
    decreases |p|
  {
    p == [] || (n.Element? && p[0] < |n.children| && ValidPath(n.children[p[0]], p[1..]))
  }

  /** The node `p` leads to from `n`. */
  function NodeAt(n: Node, p: seq<nat>): Node
    requires ValidPath(n, p)
    decreases |p|
  {
    if p == [] then n else NodeAt(n.children[p[0]], p[1..])
  }

  /**
   At every depth: a node in scope (a proper descendant, or `n` itself when
   `self` holds) that carries class `c` receives the style, every other
   element keeps its own, and text stays as it was.
   */
  lemma {:induction false} StyleAtEveryDepth(n: Node, c: string, prop: string, val: string, self: bool, p: seq<nat>)
    requires ValidPath(n, p)
    ensures var r := StyleMatching(n, c, prop, val, self);
      && ValidPath(r, p)
      && var before := NodeAt(n, p);
      && var after := NodeAt(r, p);
      && (before.Element? <==> after.Element?)
      && ((self || p != []) && HasClass(before, c) ==> after.style == before.style[prop := val])
      && (before.Element? && !((self || p != []) && HasClass(before, c)) ==> after.style == before.style)
      && (before.Text? ==> after == before)
    decreases |p|
  {
    if p != [] {
      var r := StyleMatching(n, c, prop, val, self);
      assert r.children[p[0]] == StyleMatching(n.children[p[0]], c, prop, val, true);
      StyleAtEveryDepth(n.children[p[0]], c, prop, val, true, p[1..]);
    }
  }

  /** A matching child receives the style; a child that does not match keeps its own. */
  lemma StyleReachesChildren(n: Node, c: string, prop: string, val: string, self: bool, i: int)
    requires n.Element? && 0 <= i < |n.children|
    ensures var r := StyleMatching(n, c, prop, val, self);
      && i < |r.children|
      && (HasClass(n.children[i], c) ==> r.children[i].style == n.children[i].style[prop := val])
      && (n.children[i].Element? && !HasClass(n.children[i], c) ==> r.children[i].style == n.children[i].style)
  {
  }

  function IdAttr(id: Option<string>): string
  {
    if id.Some? then " id=\"" + id.value + "\"" else ""
  }

  function ClassAttr(cls: Option<string>): string
  {
    if cls.Some? then " class=\"" + cls.value + "\"" else ""
  }

  /** The markup of a node, id before class; inline styles and escaping are not written. */
  function Markup(n: Node): string
    decreases n, 1, 0
  {
    match n
    case Text(t) => t
    case Element(tag, id, cls, _, _) =>
      "<" + tag + IdAttr(id) + ClassAttr(cls) + ">" + ChildrenMarkup(n, 0) + "</" + tag + ">"
  }

  function ChildrenMarkup(n: Node, i: nat): string
    requires n.Element? && i <= |n.children|
    decreases n, 0, |n.children| - i
  {
    if i == |n.children| then "" else Markup(n.children[i]) + ChildrenMarkup(n, i + 1)
  }

  /** The markup of an empty class-only `div`. */
  lemma DivMarkup(c: string)
    ensures Markup(Div(c)) == "<div class=\"" + c + "\"></div>"
  {
    var open := " class=\"" + c;
    DivMarkupParts(c);
    calc {
      Markup(Div(c));
      "<div" + (open + "\"") + "></div>";
      { Associative("<div", open, "\""); }
      ("<div" + open) + "\"" + "></div>";
      { Associative("<div", " class=\"", c); }
      ("<div" + " class=\"") + c + "\"" + "></div>";
      { assert "<div" + " class=\"" == "<div class=\""; }
      "<div class=\"" + c + "\"" + "></div>";
      { Associative("<div class=\"" + c, "\"", "></div>"); }
      "<div class=\"" + c + ("\"" + "></div>");
      { assert "\"" + "></div>" == "\"></div>"; }
      "<div class=\"" + c + "\"></div>";
    }
  }

  /** Regrouping a concatenation: a proof step for DivMarkup. */
  lemma Associative(a: string, b: string, c: string)
    ensures a + (b + c) == (a + b) + c
  {
  }

  /** A proof step for DivMarkup: the markup of `Div(c)` before its literals are joined. */
  lemma DivMarkupParts(c: string)
    ensures Markup(Div(c)) == "<div" + (" class=\"" + c + "\"") + "></div>"
  {
    var d := Div(c);
    assert ChildrenMarkup(d, 0) == "";
    var a := " class=\"" + c + "\"";
    assert ClassAttr(d.cls) == a;
    assert Markup(d) == "<" + "div" + "" + a + ">" + "" + "</" + "div" + ">";
    assert "<" + "div" + "" + a + ">" + "" + "</" + "div" + ">" == "<div" + a + "></div>";
  }

  /** The markup of a style-free `div` with one child. */
  lemma OneChildDivMarkup(id: Option<string>, cls: Option<string>, inner: Node)
    ensures Markup(Element("div", id, cls, map[], [inner]))
      == "<div" + IdAttr(id) + ClassAttr(cls) + ">" + Markup(inner) + "</div>"
  {
    var e := Element("div", id, cls, map[], [inner]);
    var m := Markup(inner);
    assert ChildrenMarkup(e, 1) == "";
    assert ChildrenMarkup(e, 0) == m;
    assert Markup(e) == "<" + "div" + IdAttr(id) + ClassAttr(cls) + ">" + m + "</" + "div" + ">";
    assert "<" + "div" == "<div";
    assert "</" + "div" + ">" == "</div>";
  }
}

=== FILE: effects.dfy ===
/**
 `BaronzrEffects.setEffect` and `setHoverEffect` (js/baronzr.js:167-244): the
 bar's initial display and the handlers bound on the scroll root.
 */
module Effects {
  import opened JsValues
  import opened Config
  import opened TouchEvents
  import opened Host

  /** What `setEffect` does: the bar's `display` and the handlers it binds, in order. */
  datatype EffectPlan = EffectPlan(barDisplay: string, binds: seq<HostCall>)

  /**
   `setHoverEffect`: `'fastout'` binds the fastout pair; `'intent'` binds
   hoverIntent when the plugin is present and otherwise falls through to the
   simple pair, as does every other value.
   */
  function HoverHandlers(o: Options, env: Env): (r: HoverFamily)
    ensures r == FastoutHover <==> Get(o, "effectHover") == Str("fastout")
    ensures r == IntentHover <==> Get(o, "effectHover") == Str("intent") && env.hoverIntent
    ensures r == SimpleHover <==>
      Get(o, "effectHover") != Str("fastout") && !(Get(o, "effectHover") == Str("intent") && env.hoverIntent)
  {
    var eh := Get(o, "effectHover");
    if eh == Str("fastout") then FastoutHover
    else if eh == Str("intent") && env.hoverIntent then IntentHover
    else SimpleHover
  }

  /** `setTouchEffect`: fade in on the platform's touch start, fade out on its touch end. */
  function TouchHandlers(nav: Navigator, on: HostRef): (r: seq<HostCall>)
    ensures |r| == 2
    ensures r[0] == BindEvent(on, StartOf(Preferred(nav)), FadeIn)
    ensures r[1] == BindEvent(on, EndOf(Preferred(nav)), FadeOut)
  {
    [BindEvent(on, TouchStart(nav), FadeIn), BindEvent(on, TouchEnd(nav), FadeOut)]
  }

  /**
   `setEffect` on the scroll root `on` (the root's `position: relative` is
   applied by each structure builder).
   */
  function SetEffect(o: Options, env: Env, on: HostRef): (r: EffectPlan)
    ensures r.barDisplay == "block" <==> Get(o, "effect") == Str("none")
    ensures r.barDisplay != "block" ==> r.barDisplay == "none"
    ensures Get(o, "effect") == Str("hover") <==> r.binds == [BindHover(on, HoverHandlers(o, env))]
    ensures Get(o, "effect") == Str("touch") <==> |r.binds| == 2 && r.binds[0].BindEvent?
    ensures Get(o, "effect") == Str("touch") ==> r.binds == TouchHandlers(env.nav, on)
    ensures Get(o, "effect") != Str("hover") && Get(o, "effect") != Str("touch") <==> r.binds == []
    ensures forall i :: 0 <= i < |r.binds| ==> r.binds[i].BindHover? || r.binds[i].BindEvent?
    ensures AllOn(r.binds, on)
  {
    var effect := Get(o, "effect");
    if effect == Str("none") then EffectPlan("block", [])
    else if effect == Str("hover") then EffectPlan("none", [BindHover(on, HoverHandlers(o, env))])
    else if effect == Str("touch") then EffectPlan("none", TouchHandlers(env.nav, on))
    else EffectPlan("none", [])
  }

  /** Some bound handler can make the bar appear. */
  predicate CanReveal(binds: seq<HostCall>)
  {
    exists i :: 0 <= i < |binds| && (binds[i].BindHover? || (binds[i].BindEvent? && binds[i].action == FadeIn))
  }

  /**
   The bar is ever visible exactly for the three documented effects; any
   other value hides it and binds nothing that could show it.
   */
  lemma BarVisibleOnlyForKnownEffects(o: Options, env: Env, on: HostRef)
    ensures var p := SetEffect(o, env, on);
      p.barDisplay == "block" || CanReveal(p.binds)
      <==> Get(o, "effect") in {Str("none"), Str("hover"), Str("touch")}
  {
    var p := SetEffect(o, env, on);
    if Get(o, "effect") == Str("hover") || Get(o, "effect") == Str("touch") {
      assert p.binds[0].BindHover? || (p.binds[0].BindEvent? && p.binds[0].action == FadeIn);
    }
  }
}

=== FILE: fastout.dfy ===
/**
 The "fastout" hover handlers of `setHoverFastout` (js/baronzr.js:195-217)
 as a state machine over the two values they keep in the bar's jQuery data.
 The clock and the end of the fade-in animation arrive as events.
 */
module Fastout {
  import opened JsValues

  /** The debounce window in milliseconds; a re-entry exactly this late is still inside it. */
  const Window: int := 300

  /**
   The bar's `baronzr-fastout-timestamp` (absent until the first accepted
   enter) and `baronzr-fastout-hidden` (absent, hence falsy, until set).
   */
  datatype State = State(timestamp: Option<int>, hidden: bool)

  const Initial: State := State(None, false)

  datatype Event =
    | Enter(now: int)   // mouseenter, with `Date.now()`
    | Leave             // mouseleave
    | FadeInDone        // the completion callback of a fade-in started by an enter

  /** What the handlers do to the bar. */
  datatype Effect = StartFadeIn | HideBar

  /** The enter test: no truthy timestamp (0 is falsy), or more than the window has passed. */
  predicate Accepts(s: State, now: int)
  {
    s.timestamp.None? || s.timestamp.value == 0 || now - s.timestamp.value > Window
  }

  datatype Step = Step(state: State, effects: seq<Effect>)

  function Next(s: State, e: Event): (r: Step)
    ensures e.Enter? && Accepts(s, e.now) ==> r == Step(State(Some(e.now), false), [StartFadeIn])
    ensures e.Enter? && !Accepts(s, e.now) ==> r == Step(s, [])
    ensures e.Leave? ==> r.state.hidden && r.state.timestamp == s.timestamp && r.effects == [HideBar]
    ensures e.FadeInDone? ==> r.state == s && (r.effects == [HideBar] <==> s.hidden) && (r.effects == [] <==> !s.hidden)
  {
    match e
    case Enter(now) =>
      if Accepts(s, now) then Step(State(Some(now), false), [StartFadeIn]) else Step(s, [])
    case Leave => Step(s.(hidden := true), [HideBar])
    case FadeInDone => Step(s, if s.hidden then [HideBar] else [])
  }

  /** Feeding a sequence of events, collecting the effects in order. */
  function Run(s: State, es: seq<Event>): Step
    decreases |es|
  {
    if es == [] then Step(s, [])
    else
      var first := Next(s, es[0]);
      var rest := Run(first.state, es[1..]);
      Step(rest.state, first.effects + rest.effects)
  }

  function FadeIns(fx: seq<Effect>): nat
    decreases |fx|
  {
    if fx == [] then 0 else (if fx[0] == StartFadeIn then 1 else 0) + FadeIns(fx[1..])
  }

  lemma {:induction false} FadeInsAppend(a: seq<Effect>, b: seq<Effect>)
    ensures FadeIns(a + b) == FadeIns(a) + FadeIns(b)
    decreases |a|
  {
    if a == [] {
      assert a + b == b;
    } else {
      assert (a + b)[1..] == a[1..] + b;
      FadeInsAppend(a[1..], b);
    }
  }

  /** Every enter in `es` happens no later than `last` milliseconds. */
  predicate EntersNoLaterThan(es: seq<Event>, last: int)
  {
    forall i :: 0 <= i < |es| && es[i].Enter? ==> es[i].now <= last
  }

  /** Every enter in `es` happens at `first` milliseconds or later. */
  predicate EntersNoEarlierThan(es: seq<Event>, first: int)
  {
    forall i :: 0 <= i < |es| && es[i].Enter? ==> es[i].now >= first
  }

  /**
   Once a truthy timestamp `t` is recorded, enters up to `t + 300` start no
   fade-in and leave the timestamp alone, whatever leaves and completions
   come in between.
   */
  lemma {:induction false} InsideWindowNoFadeIn(s: State, es: seq<Event>)
    requires s.timestamp.Some? && s.timestamp.value != 0
    requires EntersNoLaterThan(es, s.timestamp.value + Window)
    ensures Run(s, es).state.timestamp == s.timestamp
    ensures FadeIns(Run(s, es).effects) == 0
    decreases |es|
  {
    if es != [] {
      var first := Next(s, es[0]);
      assert first.effects == [] || first.effects == [HideBar];
      assert EntersNoLaterThan(es[1..], s.timestamp.value + Window) by {
        forall i | 0 <= i < |es[1..]| && es[1..][i].Enter?
          ensures es[1..][i].now <= s.timestamp.value + Window
        {
          assert es[1..][i] == es[i + 1];
        }
      }
      InsideWindowNoFadeIn(first.state, es[1..]);
      FadeInsAppend(first.effects, Run(first.state, es[1..]).effects);
    }
  }

  /**
   Enters that all fall within one 300 ms window starting at a positive time
   start at most one fade-in.
   */
  lemma {:induction false} OneFadeInPerWindow(s: State, es: seq<Event>, start: int)
    requires start > 0
    requires EntersNoEarlierThan(es, start) && EntersNoLaterThan(es, start + Window)
    ensures FadeIns(Run(s, es).effects) <= 1
    decreases |es|
  {
    if es != [] {
      var first := Next(s, es[0]);
      var tail := es[1..];
      assert EntersNoEarlierThan(tail, start) && EntersNoLaterThan(tail, start + Window) by {
        forall i | 0 <= i < |tail| && tail[i].Enter?
          ensures start <= tail[i].now <= start + Window
        {
          assert tail[i] == es[i + 1];
        }
      }
      FadeInsAppend(first.effects, Run(first.state, tail).effects);
      if es[0].Enter? && Accepts(s, es[0].now) {
        var t := es[0].now;
        assert first.state.timestamp == Some(t) && t != 0;
        assert EntersNoLaterThan(tail, t + Window) by {
          forall i | 0 <= i < |tail| && tail[i].Enter?
            ensures tail[i].now <= t + Window
          {
            assert tail[i] == es[i + 1];
          }
        }
        InsideWindowNoFadeIn(first.state, tail);
      } else {
        assert FadeIns(first.effects) == 0;
        OneFadeInPerWindow(first.state, tail, start);
      }
    }
  }

  /** The effect the last event of a run produced, if any. */
  function LastEffect(fx: seq<Effect>): Option<Effect>
  {
    if fx == [] then None else Some(fx[|fx| - 1])
  }

  /**
   A leave makes a fade-in that is still running undo itself: as long as no
   enter is accepted afterwards, the completion callback hides the bar again.
   */
  lemma {:induction false} LeaveBeforeCompletionHides(s: State, es: seq<Event>)
    requires s.timestamp.Some? && s.timestamp.value != 0
    requires EntersNoLaterThan(es, s.timestamp.value + Window)
    ensures LastEffect(Run(s, [Leave] + es + [FadeInDone]).effects) == Some(HideBar)
  {
    var afterLeave := Next(s, Leave).state;
    HiddenStaysHidden(afterLeave, es);
    RunAppend(s, [Leave] + es, [FadeInDone]);
  }

  /** With a truthy timestamp, events whose enters fall inside the window never clear `hidden`. */
  lemma {:induction false} HiddenStaysHidden(s: State, es: seq<Event>)
    requires s.timestamp.Some? && s.timestamp.value != 0 && s.hidden
    requires EntersNoLaterThan(es, s.timestamp.value + Window)
    ensures Run(s, es).state == s
    decreases |es|
  {
    if es != [] {
      var first := Next(s, es[0]);
      assert first.state == s;
      assert EntersNoLaterThan(es[1..], s.timestamp.value + Window) by {
        forall i | 0 <= i < |es[1..]| && es[1..][i].Enter?
          ensures es[1..][i].now <= s.timestamp.value + Window
        {
          assert es[1..][i] == es[i + 1];
        }
      }
      HiddenStaysHidden(s, es[1..]);
    }
  }

  /** Running two event sequences back to back is running their concatenation. */
  lemma {:induction false} RunAppend(s: State, a: seq<Event>, b: seq<Event>)
    ensures Run(s, a + b).state == Run(Run(s, a).state, b).state
    ensures Run(s, a + b).effects == Run(s, a).effects + Run(Run(s, a).state, b).effects
    decreases |a|
  {
    if a == [] {
      assert a + b == b;
    } else {
      assert (a + b)[1..] == a[1..] + b;
      RunAppend(Next(s, a[0]).state, a[1..], b);
    }
  }

  /** Two enters 200 ms apart start one fade-in; 301 ms apart, two. */
  lemma DebounceExamples()
    ensures FadeIns(Run(Initial, [Enter(1000), Enter(1200)]).effects) == 1
    ensures FadeIns(Run(Initial, [Enter(1000), Enter(1300)]).effects) == 1
    ensures FadeIns(Run(Initial, [Enter(1000), Enter(1301)]).effects) == 2
  {
  }
}

=== FILE: host.dfy ===
/**
 What the plugin asks of its host: the capabilities it probes, and the calls
 it makes into the Baron engine and jQuery's event binding, recorded in order
 instead of performed.
 */
module Host {
  import opened JsValues
  import opened Config
  import opened TouchEvents

  /** Whether `$root.hoverIntent` exists, and the navigator's pointer flags. */
  datatype Env = Env(hoverIntent: bool, nav: Navigator)

  /** The three hover handler pairs `setHoverEffect` can bind. */
  datatype HoverFamily = SimpleHover | IntentHover | FastoutHover

  /** The animation a bound handler starts on the bar. */
  datatype BarAction = FadeIn | FadeOut

  datatype HostCall =
    | BaronBind(on: HostRef, params: Options)   // `$el.baron(params)`
    | BaronUpdate                               // `$bigB.update()`
    | BindHover(on: HostRef, family: HoverFamily)             // `.hover(...)` or `.hoverIntent(...)` on the scroll root
    | BindEvent(on: HostRef, name: string, action: BarAction) // `.bind(name, handler)` on the scroll root

  /** Every call in the log except `update()` is made on element `on`. */
  predicate AllOn(calls: seq<HostCall>, on: HostRef)
  {
    forall i :: 0 <= i < |calls| ==> calls[i].BaronUpdate? || calls[i].on == on
  }

  /** Joining two logs made on `on` gives a log made on `on`. */
  lemma AllOnJoin(a: seq<HostCall>, b: seq<HostCall>, on: HostRef)
    requires AllOn(a, on) && AllOn(b, on)
    ensures AllOn(a + b, on)
  {
    forall i | 0 <= i < |a + b|
      ensures (a + b)[i].BaronUpdate? || (a + b)[i].on == on
    {
      if i >= |a| { assert (a + b)[i] == b[i - |a|]; }
    }
  }

  /** The engine handle, known by the parameters it was created with. */
  datatype Baron = Baron(params: Options)
}

=== FILE: js_values.dfy ===
/**
 The slice of JavaScript's value semantics the plugin relies on: the values an
 options record can hold, truthiness, strict equality (Dafny's `==` on these
 values), `typeof`, string conversion by `+`, indexing and property reads, and
 the two exceptions the plugin can raise.
 */
module JsValues {

  datatype Option<+T> = None | Some(value: T)

  /** Host objects (DOM elements wrapped by jQuery) that the plugin passes by reference. */
  datatype HostRef = TargetElement | WrapperElement

  /** Numbers are modelled as integers; NaN, infinities and fractions are not. */
  datatype JsValue =
    | Undefined
    | Null
    | Bool(b: bool)
    | Num(n: int)
    | Str(s: string)
    | Arr(elems: seq<JsValue>)
    | Obj(props: map<string, JsValue>)
    | Ref(to: HostRef)

  datatype JsError = TypeError | ReferenceError

  /** How a JavaScript evaluation completes: with a value, or by throwing. */
  datatype Completion<+T> = Normal(value: T) | Throw(error: JsError)

  /** ToBoolean: the falsy values are undefined, null, false, 0 and "". */
  predicate Truthy(v: JsValue)
  {
    match v
    case Undefined => false
    case Null => false
    case Bool(b) => b
    case Num(n) => n != 0
    case Str(s) => s != ""
    case _ => true
  }

  /** `v == null` with loose equality. */
  predicate IsNullish(v: JsValue)
  {
    v == Undefined || v == Null
  }

  /** The `typeof` operator; a jQuery object is an ordinary object. */
  function TypeOf(v: JsValue): (r: string)
    ensures r == "object" <==> v.Null? || v.Arr? || v.Obj? || v.Ref?
  {
    match v
    case Undefined => "undefined"
    case Null => "object"
    case Bool(_) => "boolean"
    case Num(_) => "number"
    case Str(_) => "string"
    case _ => "object"
  }

  function DigitChar(d: nat): char
    requires d < 10
  {
    "0123456789"[d]
  }

  /** Decimal digits of a natural number, most significant first. */
  function Digits(n: nat): (r: string)
    ensures |r| >= 1
    decreases n
  {
    if n < 10 then [DigitChar(n)] else Digits(n / 10) + [DigitChar(n % 10)]
  }

  function NumberToString(n: int): string
  {
    if n < 0 then "-" + Digits(-n) else Digits(n)
  }

  /** String conversion as performed by `'...' + v`. */
  function ToJsString(v: JsValue): (r: string)
    ensures v.Str? ==> r == v.s
    ensures v.Undefined? ==> r == "undefined"
    ensures v.Null? ==> r == "null"
    ensures v.Obj? || v.Ref? ==> r == "[object Object]"
    decreases v, 1, 0
  {
    match v
    case Undefined => "undefined"
    case Null => "null"
    case Bool(b) => if b then "true" else "false"
    case Num(n) => NumberToString(n)
    case Str(s) => s
    case Arr(es) => JoinFrom(v, 0)
    case Obj(_) => "[object Object]"
    case Ref(_) => "[object Object]"
  }

  /** `Array.prototype.join(',')` from index `i` on; undefined and null elements become "". */
  function JoinFrom(v: JsValue, i: nat): string
    requires v.Arr? && i <= |v.elems|
    decreases v, 0, |v.elems| - i
  {
    if i == |v.elems| then ""
    else
      var e := v.elems[i];
      var piece := if IsNullish(e) then "" else ToJsString(e);
      (if i == 0 then "" else ",") + piece + JoinFrom(v, i + 1)
  }

  /** `v[i]` for a non-negative integer index. */
  function Index(v: JsValue, i: nat): (r: Completion<JsValue>)
    ensures r.Throw? <==> IsNullish(v)
    ensures r.Throw? ==> r.error == TypeError
    ensures v.Arr? && i < |v.elems| ==> r == Normal(v.elems[i])
    ensures v.Arr? && i >= |v.elems| ==> r == Normal(Undefined)
    ensures v.Str? ==> r == Normal(if i < |v.s| then Str([v.s[i]]) else Undefined)
    ensures v.Obj? ==> r == Prop(v, NumberToString(i))
  {
    match v
    case Undefined => Throw(TypeError)
    case Null => Throw(TypeError)
    case Arr(es) => Normal(if i < |es| then es[i] else Undefined)
    case Str(s) => Normal(if i < |s| then Str([s[i]]) else Undefined)
    case Obj(m) =>
      var key := NumberToString(i);
      Normal(if key in m then m[key] else Undefined)
    case _ => Normal(Undefined)
  }

  /**
   `v.key` for a key that is not an array index and not `length`, which covers
   the keys the plugin reads off `wrapperAttrs`.
   */
  function Prop(v: JsValue, key: string): (r: Completion<JsValue>)
    ensures r.Throw? <==> IsNullish(v)
    ensures r.Throw? ==> r.error == TypeError
    ensures v.Obj? && key in v.props ==> r == Normal(v.props[key])
    ensures v.Obj? && key !in v.props ==> r == Normal(Undefined)
    ensures !v.Obj? && !IsNullish(v) ==> r == Normal(Undefined)
  {
    match v
    case Undefined => Throw(TypeError)
    case Null => Throw(TypeError)
    case Obj(m) => Normal(if key in m then m[key] else Undefined)
    case _ => Normal(Undefined)
  }
}

=== FILE: strategies.dfy ===
/**
 The three ways of giving a root element its scroll structure:
 `BaronzrCreator` (js/baronzr.js:46-80), `BaronzrWrapper` (js/baronzr.js:86-123)
 and `BaronzrUseExisting` (js/baronzr.js:128-144). Each takes the scroller
 and bar class names and returns the node that now stands where the root
 stood, the engine handle, and the host calls made.
 */
module Strategies {
  import opened JsValues
  import opened Config
  import opened Dom
  import opened Host
  import opened Effects

  datatype Added = Added(tree: Node, baron: Baron, calls: seq<HostCall>)

  /**
   `$.extend({root, scroller, bar, barOnCls}, options)`: the engine gets the
   whole options record, and any key the record defines overrides the four
   the builder sets.
   */
  function EngineParams(on: HostRef, scrollerClass: string, barClass: string, o: Options): (r: Options)
    ensures forall k :: Get(o, k) != Undefined ==> Get(r, k) == Get(o, k)
    ensures Get(o, "root") == Undefined ==> Get(r, "root") == Ref(on)
    ensures Get(o, "scroller") == Undefined ==> Get(r, "scroller") == Str("." + scrollerClass)
    ensures Get(o, "bar") == Undefined ==> Get(r, "bar") == Str("." + barClass)
    ensures Get(o, "barOnCls") == Undefined ==> Get(r, "barOnCls") == Str("baron")
    ensures r.Keys == {"root", "scroller", "bar", "barOnCls"} + CopiedKeys(o)
  {
    var own := map[
      "root" := Ref(on),
      "scroller" := Str("." + scrollerClass),
      "bar" := Str("." + barClass),
      "barOnCls" := Str("baron")
    ];
    Extend(own, o)
  }

  /** The new bar: a `div` of the bar class with the display `setEffect` chose. */
  function Bar(barClass: string, display: string): Node
  {
    Element("div", None, Some(barClass), map["display" := display], [])
  }

  /** `css({position: 'relative'})` on the scroll root. */
  function Positioned(n: Node): Node
    requires n.Element?
  {
    n.(style := n.style["position" := "relative"])
  }

  /** The last child of an element, which is where `appendTo` put the scroller. */
  function LastChild(n: Node): Node
    requires n.Element? && |n.children| > 0
  {
    n.children[|n.children| - 1]
  }

  /**
   `BaronzrCreator.add`. When the root has element children it is emptied
   (text nodes included), the scroller with its bar is appended, and the old
   element children are prepended into the scroller; otherwise the scroller
   is appended after whatever text the root holds.
   */
  function CreateAdd(o: Options, env: Env, root: Node, scrollerClass: string, barClass: string): (r: Added)
    requires root.Element?
    ensures r.tree.Element? && |r.tree.children| > 0
    ensures r.tree.tag == root.tag && r.tree.id == root.id && r.tree.cls == root.cls
    ensures ElementChildren(r.tree.children) == [LastChild(r.tree)]
    ensures |ElementChildren(root.children)| > 0 ==> r.tree.children == [LastChild(r.tree)]
    ensures |ElementChildren(root.children)| == 0 ==> r.tree.children[..|r.tree.children| - 1] == root.children
    ensures LastChild(r.tree)
      == Element("div", None, Some(scrollerClass), map[], ElementChildren(root.children) + [Bar(barClass, SetEffect(o, env, TargetElement).barDisplay)])
    ensures r.tree.style == root.style["position" := "relative"]
    ensures r.baron.params == EngineParams(TargetElement, scrollerClass, barClass, o)
    ensures r.calls == [BaronBind(TargetElement, r.baron.params)] + SetEffect(o, env, TargetElement).binds
    ensures AllOn(r.calls, TargetElement)
  {
    var kids := ElementChildren(root.children);
    var kept := if |kids| > 0 then [] else root.children;
    var scroller := Element("div", None, Some(scrollerClass), map[], kids + [Bar(barClass, SetEffect(o, env, TargetElement).barDisplay)]);
    var params := EngineParams(TargetElement, scrollerClass, barClass, o);
    ElementChildrenAppend(kept, [scroller]);
    AllOnJoin([BaronBind(TargetElement, params)], SetEffect(o, env, TargetElement).binds, TargetElement);
    assert (kept + [scroller])[..|kept|] == kept;
    Added(Positioned(root.(children := kept + [scroller])), Baron(params), [BaronBind(TargetElement, params)] + SetEffect(o, env, TargetElement).binds)
  }

  /** The wrapper attributes' id and class, when truthy, as `getWrapperHtml` reads them. */
  function WrapperAttr(o: Options, key: string): (r: Completion<Option<string>>)
    ensures r.Throw? <==> IsNullish(Get(o, "wrapperAttrs"))
  {
    match Prop(Get(o, "wrapperAttrs"), key)
    case Throw(e) => Throw(e)
    case Normal(v) => Normal(if Truthy(v) then Some(ToJsString(v)) else None)
  }

  /** `getWrapperHtml`: the markup handed to `$root.wrap`. */
  function WrapperHtml(o: Options, scrollerClass: string): (r: Completion<string>)
    ensures r.Throw? <==> IsNullish(Get(o, "wrapperAttrs"))
  {
    var scroller := "<div class=\"" + scrollerClass + "\"></div>";
    var wa := Get(o, "wrapperAttrs");
    match Prop(wa, "elementId")
    case Throw(e) => Throw(e)
    case Normal(id) =>
      var withId := "<div" + (if Truthy(id) then " id=\"" + ToJsString(id) + "\"" else "");
      match Prop(wa, "elementClass")
      case Throw(e) => Throw(e)
      case Normal(cls) =>
        var withClass := withId + (if Truthy(cls) then " class=\"" + ToJsString(cls) + "\"" else "");
        Normal(withClass + ">" + scroller + "</div>")
  }

  /** The element tree the wrapper markup describes: a wrapper `div` holding an empty scroller `div`. */
  function WrapperShell(o: Options, scrollerClass: string): (r: Completion<Node>)
    ensures r.Throw? <==> IsNullish(Get(o, "wrapperAttrs"))
    ensures r.Normal? ==> r.value.Element? && r.value.tag == "div" && r.value.children == [Div(scrollerClass)]
  {
    match WrapperAttr(o, "elementId")
    case Throw(e) => Throw(e)
    case Normal(id) =>
      match WrapperAttr(o, "elementClass")
      case Throw(e) => Throw(e)
      case Normal(cls) => Normal(Element("div", id, cls, map[], [Div(scrollerClass)]))
  }

  /**
   The string `getWrapperHtml` builds is exactly the markup of the wrapper
   shell: `<div`, the id attribute only when the id is truthy, then the class
   attribute only when the class is truthy, `>`, one empty scroller, `</div>`.
   */
  lemma WrapperHtmlIsShellMarkup(o: Options, scrollerClass: string)
    ensures WrapperHtml(o, scrollerClass).Normal? <==> WrapperShell(o, scrollerClass).Normal?
    ensures WrapperHtml(o, scrollerClass).Normal? ==>
      WrapperHtml(o, scrollerClass).value == Markup(WrapperShell(o, scrollerClass).value)
  {
    if WrapperShell(o, scrollerClass).Normal? {
      var shell := WrapperShell(o, scrollerClass).value;
      var wa := Get(o, "wrapperAttrs");
      var id := Prop(wa, "elementId").value;
      var cls := Prop(wa, "elementClass").value;
      assert IdAttr(shell.id) == if Truthy(id) then " id=\"" + ToJsString(id) + "\"" else "";
      assert ClassAttr(shell.cls) == if Truthy(cls) then " class=\"" + ToJsString(cls) + "\"" else "";
      DivMarkup(scrollerClass);
      OneChildDivMarkup(shell.id, shell.cls, Div(scrollerClass));
    }
  }

  /**
   `BaronzrWrapper.add`: the root is wrapped as wrapper > scroller > [root, bar];
   the root keeps its own children. The engine is bound on the wrapper and
   refreshed once with `update()`, before the effect handlers are bound, also
   on the wrapper.
   */
  function WrapAdd(o: Options, env: Env, root: Node, scrollerClass: string, barClass: string): (r: Completion<Added>)
    ensures r.Throw? <==> IsNullish(Get(o, "wrapperAttrs"))
    ensures r.Throw? ==> r.error == TypeError
    ensures r.Normal? ==>
      var w := r.value.tree;
      && w.Element? && w.tag == "div" && |w.children| == 1
      && w.children[0] == Element("div", None, Some(scrollerClass), map[], [root, Bar(barClass, SetEffect(o, env, WrapperElement).barDisplay)])
      && w.style == map["position" := "relative"]
      && w.id == WrapperAttr(o, "elementId").value
      && w.cls == WrapperAttr(o, "elementClass").value
    ensures r.Normal? ==> r.value.baron.params == EngineParams(WrapperElement, scrollerClass, barClass, o)
    ensures r.Normal? ==> r.value.calls == [BaronBind(WrapperElement, r.value.baron.params), BaronUpdate] + SetEffect(o, env, WrapperElement).binds
    ensures r.Normal? ==> AllOn(r.value.calls, WrapperElement)
  {
    match WrapperShell(o, scrollerClass)
    case Throw(e) => Throw(e)
    case Normal(shell) =>
      var wrapped := shell.(children := [shell.children[0].(children := [root])]);
      var plan := SetEffect(o, env, WrapperElement);
      var scroller := wrapped.children[0];
      var withBar := wrapped.(children := [scroller.(children := scroller.children + [Bar(barClass, plan.barDisplay)])]);
      var params := EngineParams(WrapperElement, scrollerClass, barClass, o);
      AllOnJoin([BaronBind(WrapperElement, params), BaronUpdate], plan.binds, WrapperElement);
      Normal(Added(Positioned(withBar), Baron(params), [BaronBind(WrapperElement, params), BaronUpdate] + plan.binds))
  }

  /** The number of `update()` calls in a call log. */
  function Updates(calls: seq<HostCall>): nat
    decreases |calls|
  {
    if calls == [] then 0 else (if calls[0] == BaronUpdate then 1 else 0) + Updates(calls[1..])
  }

  /** Wrapping refreshes the engine exactly once, and only after binding it. */
  lemma {:induction false} WrapUpdatesOnceAfterBind(o: Options, env: Env, root: Node, scrollerClass: string, barClass: string)
    requires WrapAdd(o, env, root, scrollerClass, barClass).Normal?
    ensures var calls := WrapAdd(o, env, root, scrollerClass, barClass).value.calls;
      Updates(calls) == 1 && calls[0].BaronBind? && calls[1] == BaronUpdate
  {
    var calls := WrapAdd(o, env, root, scrollerClass, barClass).value.calls;
    var binds := SetEffect(o, env, WrapperElement).binds;
    NoUpdates(binds);
    assert calls[1..] == [BaronUpdate] + binds;
    assert calls[2..] == binds;
    assert Updates(calls) == Updates(calls[1..]) == 1 + Updates(binds);
  }

  lemma {:induction false} NoUpdates(calls: seq<HostCall>)
    requires forall i :: 0 <= i < |calls| ==> calls[i] != BaronUpdate
    ensures Updates(calls) == 0
    decreases |calls|
  {
    if calls != [] {
      NoUpdates(calls[1..]);
    }
  }

  /**
   `BaronzrUseExisting.add`: creates nothing. The engine is bound on the root,
   and `setEffect` styles whatever elements below the root carry the bar class.
   */
  function UseExistingAdd(o: Options, env: Env, root: Node, scrollerClass: string, barClass: string): (r: Added)
    requires root.Element?
    ensures SameShape(root, r.tree)
    ensures r.tree.style == root.style["position" := "relative"]
    ensures r.baron.params == EngineParams(TargetElement, scrollerClass, barClass, o)
    ensures r.calls == [BaronBind(TargetElement, r.baron.params)] + SetEffect(o, env, TargetElement).binds
    ensures AllOn(r.calls, TargetElement)
  {
    var params := EngineParams(TargetElement, scrollerClass, barClass, o);
    var plan := SetEffect(o, env, TargetElement);
    var styled := StyleMatching(Positioned(root), barClass, "display", plan.barDisplay, false);
    AllOnJoin([BaronBind(TargetElement, params)], plan.binds, TargetElement);
    Added(styled, Baron(params), [BaronBind(TargetElement, params)] + plan.binds)
  }

  /**
   Every element below the root that carries the bar class, at any depth,
   gets the effect's display. Every other element below the root keeps its
   style, and text is untouched.
   */
  lemma UseExistingStylesBars(o: Options, env: Env, root: Node, scrollerClass: string, barClass: string, p: seq<nat>)
    requires root.Element? && ValidPath(root, p) && p != []
    ensures var t := UseExistingAdd(o, env, root, scrollerClass, barClass).tree;
      && ValidPath(t, p)
      && var before := NodeAt(root, p);
      && var after := NodeAt(t, p);
      && (before.Element? <==> after.Element?)
      && (HasClass(before, barClass) ==> after.style == before.style["display" := SetEffect(o, env, TargetElement).barDisplay])
      && (before.Element? && !HasClass(before, barClass) ==> after.style == before.style)
      && (before.Text? ==> after == before)
  {
    var positioned := Positioned(root);
    assert positioned.children == root.children;
    assert NodeAt(positioned, p) == NodeAt(root.children[p[0]], p[1..]);
    StyleAtEveryDepth(positioned, barClass, "display", SetEffect(o, env, TargetElement).barDisplay, false, p);
  }

  /** The three builders, as the `creationMode` switch names them. */
  datatype Strategy = Creator | Wrapper | UseExisting

  /** `baronzrMethod.add(...)`: the builders that cannot throw report a normal completion. */
  function Add(s: Strategy, o: Options, env: Env, root: Node, scrollerClass: string, barClass: string): (r: Completion<Added>)
    requires root.Element?
    ensures r.Throw? ==> s == Wrapper && IsNullish(Get(o, "wrapperAttrs"))
    ensures s == Creator ==> r == Normal(CreateAdd(o, env, root, scrollerClass, barClass))
    ensures s == Wrapper ==> r == WrapAdd(o, env, root, scrollerClass, barClass)
    ensures s == UseExisting ==> r == Normal(UseExistingAdd(o, env, root, scrollerClass, barClass))
  {
    match s
    case Creator => Normal(CreateAdd(o, env, root, scrollerClass, barClass))
    case Wrapper => WrapAdd(o, env, root, scrollerClass, barClass)
    case UseExisting => Normal(UseExistingAdd(o, env, root, scrollerClass, barClass))
  }
}

=== FILE: touch_events.dfy ===
/**
 `BaronzrTouchEvents` (js/baronzr.js:263-286): the names of the events that
 start and end a touch, chosen from the navigator's pointer capabilities.
 */
module TouchEvents {

  /** The two capability flags read off `window.navigator`. */
  datatype Navigator = Navigator(pointerEnabled: bool, msPointerEnabled: bool)

  /** The three event families a platform may offer. */
  datatype Family = Pointer | MsPointer | Touch

  function StartOf(f: Family): string
  {
    match f
    case Pointer => "pointerdown"
    case MsPointer => "MSPointerDown"
    case Touch => "touchstart"
  }

  function EndOf(f: Family): string
  {
    match f
    case Pointer => "pointerout"
    case MsPointer => "MSPointerOut"
    case Touch => "touchend"
  }

  /** The family a navigator supports, preferring standard pointer events. */
  function Preferred(nav: Navigator): (f: Family)
    ensures f == Pointer <==> nav.pointerEnabled
    ensures f == MsPointer <==> !nav.pointerEnabled && nav.msPointerEnabled
    ensures f == Touch <==> !nav.pointerEnabled && !nav.msPointerEnabled
  {
    if nav.pointerEnabled then Pointer
    else if nav.msPointerEnabled then MsPointer
    else Touch
  }

  /** `getStartEvent`: the start event of the preferred family. */
  function TouchStart(nav: Navigator): (r: string)
    ensures r == StartOf(Preferred(nav))
  {
    if nav.pointerEnabled then "pointerdown"
    else if nav.msPointerEnabled then "MSPointerDown"
    else "touchstart"
  }

  /** `getEndEvent`: the end event of the same preferred family. */
  function TouchEnd(nav: Navigator): (r: string)
    ensures r == EndOf(Preferred(nav))
  {
    if nav.pointerEnabled then "pointerout"
    else if nav.msPointerEnabled then "MSPointerOut"
    else "touchend"
  }

  /** A start name identifies its family, so no start can be paired with another family's end. */
  lemma StartIdentifiesFamily(f: Family, g: Family)
    requires StartOf(f) == StartOf(g)
    ensures f == g
    ensures EndOf(f) == EndOf(g)
  {
  }
}

=== FILE: validator.dfy ===
/**
 `BaronzrValidator` (js/baronzr.js:291-338), modelled as written. Each
 validator mutates the record it is given; here it returns the mutated copy.
 */
module Validator {
  import opened JsValues
  import opened Config

  predicate ValidDirection(v: JsValue)
  {
    v == Str("h") || v == Str("v")
  }

  /** The effects `validateEffect` accepts; the documented `'none'` is not among them. */
  predicate AcceptedEffect(v: JsValue)
  {
    v == Str("hover") || v == Str("touch")
  }

  predicate ValidCreationMode(v: JsValue)
  {
    v == Str("create") || v == Str("wrap") || v == Str("use_existing")
  }

  /** Every key other than `k` reads the same in both records. */
  ghost predicate OnlyKeyChanged(before: Options, after: Options, k: string)
  {
    forall j :: j != k ==> Get(after, j) == Get(before, j)
  }

  /** `validateDirection`: anything but `'h'` or `'v'` becomes `'h'`. */
  function ValidateDirection(o: Options): (r: Options)
    ensures ValidDirection(Get(r, "direction"))
    ensures ValidDirection(Get(o, "direction")) ==> r == o
    ensures !ValidDirection(Get(o, "direction")) ==> Get(r, "direction") == Str("h")
    ensures OnlyKeyChanged(o, r, "direction")
  {
    if ValidDirection(Get(o, "direction")) then o else o["direction" := Str("h")]
  }

  /** `validateEffect`: on an unaccepted effect it assigns `'hover'` to `direction`, not to `effect`. */
  function ValidateEffect(o: Options): (r: Options)
    ensures Get(r, "effect") == Get(o, "effect")
    ensures AcceptedEffect(Get(o, "effect")) ==> r == o
    ensures !AcceptedEffect(Get(o, "effect")) ==> Get(r, "direction") == Str("hover")
    ensures OnlyKeyChanged(o, r, "direction")
  {
    if AcceptedEffect(Get(o, "effect")) then o else o["direction" := Str("hover")]
  }

  /** `validateCreationMode`: anything but the three modes becomes `'create'`. */
  function ValidateCreationMode(o: Options): (r: Options)
    ensures ValidCreationMode(Get(r, "creationMode"))
    ensures ValidCreationMode(Get(o, "creationMode")) ==> r == o
    ensures !ValidCreationMode(Get(o, "creationMode")) ==> Get(r, "creationMode") == Str("create")
    ensures OnlyKeyChanged(o, r, "creationMode")
  {
    if ValidCreationMode(Get(o, "creationMode")) then o else o["creationMode" := Str("create")]
  }

  /**
   `validateScrollerClasses`: the test is inverted, so an array is replaced by
   the defaults, and anything else reaches `ops.scrollerClasses`, where the
   undeclared `ops` throws a ReferenceError.
   */
  function ValidateScrollerClasses(o: Options): (r: Completion<Options>)
    ensures r.Normal? <==> Get(o, "scrollerClasses").Arr?
    ensures r.Throw? ==> r.error == ReferenceError
    ensures r.Normal? ==> Get(r.value, "scrollerClasses") == DefaultScrollerClasses
    ensures r.Normal? ==> OnlyKeyChanged(o, r.value, "scrollerClasses")
  {
    if Get(o, "scrollerClasses").Arr? then Normal(o["scrollerClasses" := DefaultScrollerClasses])
    else Throw(ReferenceError)
  }

  /** `validateWrapperAttrs`: in wrap mode a nullish or non-object value becomes the default attributes. */
  function ValidateWrapperAttrs(o: Options): (r: Options)
    ensures r != o ==> Get(o, "creationMode") == Str("wrap")
    ensures r != o ==> IsNullish(Get(o, "wrapperAttrs")) || TypeOf(Get(o, "wrapperAttrs")) != "object"
    ensures Get(o, "creationMode") == Str("wrap") && !IsNullish(Get(r, "wrapperAttrs"))
      ==> Get(r, "wrapperAttrs").Arr? || Get(r, "wrapperAttrs").Obj? || Get(r, "wrapperAttrs").Ref?
    ensures Get(o, "creationMode") == Str("wrap")
      && (IsNullish(Get(o, "wrapperAttrs")) || TypeOf(Get(o, "wrapperAttrs")) != "object")
      ==> Get(r, "wrapperAttrs") == DefaultWrapperAttrs
    ensures OnlyKeyChanged(o, r, "wrapperAttrs")
  {
    var wa := Get(o, "wrapperAttrs");
    if Get(o, "creationMode") == Str("wrap") && (IsNullish(wa) || TypeOf(wa) != "object") then
      o["wrapperAttrs" := DefaultWrapperAttrs]
    else o
  }

  /**
   What the record holds when `validateOptions` throws at `scrollerClasses`:
   the direction, effect and mode validators have run, and nothing else changed.
   */
  ghost predicate ThrownRecord(before: Options, after: Options)
  {
    && (AcceptedEffect(Get(before, "effect")) ==>
        Get(after, "direction") == (if ValidDirection(Get(before, "direction")) then Get(before, "direction") else Str("h")))
    && (!AcceptedEffect(Get(before, "effect")) ==> Get(after, "direction") == Str("hover"))
    && Get(after, "creationMode")
       == (if ValidCreationMode(Get(before, "creationMode")) then Get(before, "creationMode") else Str("create"))
    && forall k :: k != "direction" && k != "creationMode" ==> Get(after, k) == Get(before, k)
  }

  /** The record after `validateOptions`, and how the call completed. */
  datatype Validated = Validated(options: Options, completion: Completion<JsValue>)

  /**
   `validateOptions`: the five validators in order; it has no `return`, so a
   normal completion yields `undefined`. A throw leaves the mutations made
   before it in place.
   */
  function ValidateOptions(o: Options): (r: Validated)
    ensures r.completion.Normal? ==> r.completion.value == Undefined
    ensures r.completion.Throw? <==> !Get(o, "scrollerClasses").Arr?
    ensures r.completion.Throw? ==> r.completion.error == ReferenceError
    ensures ValidCreationMode(Get(r.options, "creationMode"))
    ensures Get(r.options, "effect") == Get(o, "effect")
    ensures r.completion.Throw? ==> ThrownRecord(o, r.options)
  {
    var o1 := ValidateDirection(o);
    var o2 := ValidateEffect(o1);
    var o3 := ValidateCreationMode(o2);
    match ValidateScrollerClasses(o3)
    case Throw(e) => Validated(o3, Throw(e))
    case Normal(o4) => Validated(ValidateWrapperAttrs(o4), Normal(Undefined))
  }

  /** For every record, running the direction, creation-mode or effect validator a second time changes nothing. */
  lemma ValidatorsIdempotent(o: Options)
    ensures ValidateDirection(ValidateDirection(o)) == ValidateDirection(o)
    ensures ValidateCreationMode(ValidateCreationMode(o)) == ValidateCreationMode(o)
    ensures ValidateEffect(ValidateEffect(o)) == ValidateEffect(o)
  {
  }

  /**
   The documented effect `'none'` is rejected, and the rejection overwrites a
   valid vertical direction with `'hover'`, which later reads as horizontal.
   */
  lemma NoneEffectClobbersDirection(o: Options)
    requires Get(o, "effect") == Str("none")
    requires Get(o, "direction") == Str("v")
    ensures Get(ValidateEffect(ValidateDirection(o)), "direction") == Str("hover")
    ensures Get(ValidateEffect(ValidateDirection(o)), "effect") == Str("none")
  {
  }
}
